=== FILE: README.md ===
# Anki card creator: field composition and note building

This project is a Dafny model of the part of the Anki card creator that turns the form into an AnkiConnect note.

- **Composition** (`Composer`, from the submit handler in `src/App.tsx`):
  - every text section is trimmed and becomes a labelled HTML fragment;
  - fragments of mapped sections are appended, in `sectionOrder`, to the Anki field they are mapped to;
  - fragments of unmapped sections are joined into a `back` text;
  - the placement of the two audio clips and of the images is decided;
  - everything is packed into the record passed to `sendToAnki`.
- **Settings** (`Settings`, from `src/components/SettingsModal.tsx`):
  - the settings record and its defaults;
  - `normalize`, which repairs `sectionOrder` into a permutation of the nine canonical sections;
  - `save`, `update` and the splice move behind the reorder arrows;
  - the `mode[:fieldName]` value of the audio-placement select.
- **Note assembly** (`AnkiService`, from `src/services/ankiService.ts`):
  - the defaults of `sendToAnki` and its choice between the given fields and a `{front, back}` map;
  - how the target field of each attachment is resolved;
  - the `[sound:_x]` and `<img src="_x" />` markers and their separators;
  - the order of the `storeMediaFile`/`addNote` calls;
  - AnkiConnect's response-shape check;
  - the data-URL prefix strip of `getBase64`.
- **End to end** (`Pipeline`): the two halves taken together:
  - where each attachment lands;
  - which sections reach the note that is added;
  - the `back` text, which never does (see Findings).

Shared helpers:
- `Text` has JavaScript's `join`, `filter(Boolean)`, `trim`, `indexOf` and `split` on one character.
- `Seqs` has the `Array.from(new Set(...))` dedup, filters, and the splice move.
- `Wrappers` has `Option` and `Result`.

Remote calls are not performed. `Prepare` does all the reading and field merging first; a read error aborts before any call. `Calls` lists the requests in order, and `Execute` runs them against a sequence of `Reply` values: `Delivered(body)`, `Unreachable` for a network error, and `Silent` for a timeout. A call with no reply left counts as a timeout. Reading a file is a parameter too: a `File` carries the data URL the reader would produce, or none when the read fails.

## Model

| member | source | states |
|---|---|---|
| Text.TrimStart | src/App.tsx:68 | the result is a suffix of the input, everything dropped is whitespace or a line terminator, and the result does not start with one |
| Text.TrimEnd | src/App.tsx:68 | the result is a prefix of the input, everything dropped is whitespace or a line terminator, and the result does not end with one |
| Text.Trim | src/App.tsx:68 | `trim()`: the result is a slice `s[i..j]` of the input with only whitespace or line terminators outside it, and it neither starts nor ends with one |
| Text.TrimIdempotent | src/App.tsx:68 | trimming twice is trimming once |
| Text.TrimEmptyIff | src/App.tsx:70-74 | a section's trimmed text is empty exactly when the section is all whitespace |
| Text.AppendPart | src/App.tsx:107 | `[existing, html].filter(Boolean).join(sep)` with non-empty `html` is `html` alone when `existing` is empty and `existing + sep + html` otherwise |
| Text.JoinNonEmptyFlatten | src/App.tsx:107 | a `filter(Boolean).join` whose first part is itself such a join equals one `filter(Boolean).join` over all the parts, so appending part by part is one join |
| Text.JoinNonEmptyHasPart | src/App.tsx:107 | every non-empty part occurs in the `filter(Boolean).join` of its list |
| Text.SplitJoin | src/components/SettingsModal.tsx:245 | `split(c)` followed by `join(c)` gives back the original string |
| Text.Split | src/components/SettingsModal.tsx:245 | `split(c)` yields at least one piece and no piece contains `c` |
| Text.IndexOf | src/services/ankiService.ts:39 | `indexOf(c)` is -1 exactly when `c` does not occur, and otherwise the first position of `c` |
| Seqs.Dedup | src/components/SettingsModal.tsx:44 | `Array.from(new Set(xs))` has no duplicates and the same members as `xs` |
| Seqs.FirstIndex | src/components/SettingsModal.tsx:44 | the index returned holds the element and no earlier index does |
| Seqs.DedupFirstOccurrenceOrder | src/components/SettingsModal.tsx:44 | `Array.from(new Set(xs))` lists the distinct elements in the order of their first occurrence in `xs` |
| Seqs.DedupAppend | src/components/SettingsModal.tsx:44 | deduplicating `xs + ys`, for a duplicate-free `ys`, keeps the first occurrences of `xs` followed by the elements of `ys` not in `xs` |
| Seqs.MoveSpec | src/components/SettingsModal.tsx:110-112 | the splice move puts the moved element at `to`, keeps all other elements in their relative order, and is a permutation |
| Seqs.MoveUpSwaps | src/components/SettingsModal.tsx:222 | moving an element one place up swaps it with its predecessor |
| Seqs.MoveDownSwaps | src/components/SettingsModal.tsx:227 | moving an element one place down swaps it with its successor |
| Settings.SectionOf | src/components/SettingsModal.tsx:41 | a key names a section exactly when it is one of the nine canonical keys |
| Settings.SectionKeyRoundTrip | src/components/SettingsModal.tsx:31 | keys and sections correspond one to one |
| Settings.MergedOrder | src/components/SettingsModal.tsx:43-44 | the repaired order is a permutation of the nine canonical sections: all present, none repeated, nothing unknown |
| Settings.MergedOrderShape | src/components/SettingsModal.tsx:44 | the repaired order is the known keys of the stored order, first occurrences in their order, followed by the missing canonical keys in canonical order |
| Settings.MergedOrderOfCanonical | src/components/SettingsModal.tsx:44 | an order that is already a permutation of the canonical keys is kept unchanged |
| Settings.Normalize | src/components/SettingsModal.tsx:26-46 | each setting is the stored value when present and the default otherwise; `sectionToField` defaults to `{}`; the order is the repaired stored order (empty when absent), hence canonical |
| Settings.NormalizeMissingOrder | src/components/SettingsModal.tsx:43-44 | a missing `sectionOrder` becomes exactly the canonical order |
| Settings.NormalizeIdempotent | src/components/SettingsModal.tsx:42-46 | normalising a normalised value changes nothing |
| Settings.NormalizeFixesCanonical | src/components/SettingsModal.tsx:42-46 | settings whose order is already canonical are a fixed point of `normalize` |
| Settings.Save | src/components/SettingsModal.tsx:48-52 | the value stored is the normalisation of the settings passed in, and the state kept is that same value |
| Settings.Load | src/components/SettingsModal.tsx:47 | a stored value loads as its normalisation, nothing stored yields the defaults, and the order is always canonical |
| Settings.LoadAfterSave | src/components/SettingsModal.tsx:47-52 | loading what was saved gives back the state that saving produced |
| Settings.Update | src/components/SettingsModal.tsx:106 | every setting the patch carries takes the patch's value and every other setting keeps its value, with the section order repaired; the new state is what is stored |
| Settings.UpdateEmptyPatch | src/components/SettingsModal.tsx:106 | an empty patch leaves normalised settings unchanged |
| Settings.ReorderSection | src/components/SettingsModal.tsx:108-114 | reordering does nothing exactly when `from == to` |
| Settings.ReorderSectionSpec | src/components/SettingsModal.tsx:108-114 | after a move the order is a permutation of the old one, with the moved key at `to` and the other keys in their old relative order |
| Settings.DownTarget | src/components/SettingsModal.tsx:227 | the down arrow targets the next index, clamped to the last one |
| Settings.UpTarget | src/components/SettingsModal.tsx:222 | the up arrow targets the previous index, clamped to 0 |
| Settings.ArrowButtonsSwap | src/components/SettingsModal.tsx:222-228 | the up and down arrows swap a section with its neighbour, and do nothing at the ends |
| Settings.MoveCanonical | src/components/SettingsModal.tsx:108-114 | a move keeps a canonical order canonical, so saving does not undo it |
| Settings.MapSectionToField | src/components/SettingsModal.tsx:213-214 | choosing a field for a section sets that entry of `sectionToField`, keeps every other entry and every other setting, keeps a canonical order, and stores the new state |
| Settings.TargetRoundTrip | src/components/SettingsModal.tsx:243-246 | encoding a target as `mode` or `field:name` and decoding with `split(':')` gives back the mode, plus the field name in field mode, when the name has no `:` |
| Settings.TargetColonTruncates | src/components/SettingsModal.tsx:243-246 | a field name with a `:` comes back cut at its first `:` |
| Settings.OptionValues | src/components/SettingsModal.tsx:249-252 | the select offers `front`, `back` and `none`, in that order, followed by one `field:<name>` option per field |
| Settings.OptionValuesDecode | src/components/SettingsModal.tsx:245-252 | every option decodes to a target: the three fixed options to their mode with no field, and a field option to field mode with its field |
| AnkiService.StripDataUrlPrefixSpec | src/services/ankiService.ts:39 | the payload is what follows the first comma of the data URL, and the whole string when there is no comma |
| AnkiService.GetBase64 | src/services/ankiService.ts:29-44 | no file gives no encoding; an unreadable file fails; a readable one gives its name and stripped payload |
| AnkiService.Validate | src/services/ankiService.ts:65-77 | a response is accepted exactly when it is an object with exactly the keys `result` and `error` and a falsy `error`, and then `result` is returned; a truthy `error` is the failure; each protocol violation has its own error: a `null` response fails as a null response, any other count of own keys as an unexpected field count, two keys without `result` as a missing `result` (also for a string or array with two own properties), and `result` without `error` as a missing `error` |
| AnkiService.ThreeKeysRejected | src/services/ankiService.ts:65-67 | every response holding `result`, `error` and one more key is rejected for its key count, whatever its `result`, `error` and third value are |
| AnkiService.Invoke | src/services/ankiService.ts:56-86 | a network error, a timeout and unparsable text each fail with their own error; a parsed body is validated |
| AnkiService.WithDefaults | src/services/ankiService.ts:112-120 | absent options default to front, back, no images, back, no duplicates and the `web-creator` tag; present ones are kept |
| AnkiService.ResolveField | src/services/ankiService.ts:152-156 | a non-empty explicit field wins; otherwise front and back name their fields and anything else gives `''` |
| AnkiService.BaseFields | src/services/ankiService.ts:132-135 | the given fields are used when present; otherwise the front and back fields, with back winning when the names coincide |
| AnkiService.AppendSound | src/services/ankiService.ts:157-159 | a sound marker is appended with no separator to the target field only, and an empty target changes nothing |
| AnkiService.AppendImages | src/services/ankiService.ts:190-193 | the image tags, joined by `<br>`, are appended after `<br>` only when the field already has content; other fields are untouched |
| AnkiService.ImageTags | src/services/ankiService.ts:191 | one `<img src="_name" />` tag per encoded image, in order |
| AnkiService.PresentFiles | src/services/ankiService.ts:127-130 | the files the image loop visits are exactly the present entries of the selection, and there are no more of them than entries |
| AnkiService.EncodeImages | src/services/ankiService.ts:127-130 | encoding the images succeeds exactly when every present file is readable, skips absent entries, and keeps the order |
| AnkiService.NoteFieldsLayout | src/services/ankiService.ts:132-194 | each note field is its base content, then the audio 1 marker, then the audio 2 marker, then the image tags after `<br>` when needed; a field exists exactly when it existed or a marker went to it |
| AnkiService.MergeNeverOverwrites | src/services/ankiService.ts:147-194 | merging markers never overwrites, so the base content of every field is a prefix of its final content |
| AnkiService.Prepare | src/services/ankiService.ts:123-145 | preparation succeeds exactly when encoding the attachments does and fails with its error; the media are the encodings in order, and the note carries the merged fields, the deck, the model, the duplicate flag and the tags after defaults |
| AnkiService.PrepareSucceedsIffReadable | src/services/ankiService.ts:124-130 | preparation succeeds exactly when every attachment is readable; otherwise it fails with the first unreadable one, before any call |
| AnkiService.Calls | src/services/ankiService.ts:147-196 | one `storeMediaFile` per medium in order, each under `_`-prefixed name, then exactly one `addNote` |
| AnkiService.Execute | src/services/ankiService.ts:147-196 | the calls issued are a prefix of the planned ones, every call before the last succeeded, the outcome is that of the last call, and success means every call was issued |
| AnkiService.SendToAnki | src/services/ankiService.ts:101-200 | a read error makes no call; otherwise the planned calls run in order until one fails, every call before the last succeeded, and the result is the reply to the last call |
| AnkiService.SuccessfulCallSequence | src/services/ankiService.ts:147-196 | a successful submission read every attachment, stored each one in order (audio 1, audio 2, then the images) under its `_`-prefixed name with its payload, and then added the note |
| Composer.Labelled | src/App.tsx:78-84 | a fragment is empty exactly when the trimmed text is empty, and otherwise is the bold label, `<br>` and the trimmed text |
| Composer.SectionHtmlNonEmpty | src/App.tsx:79-89 | a section has a fragment exactly when its text is not blank; the attachments never have one |
| Composer.KeyToHtml | src/App.tsx:78-89 | the fragment table has exactly one entry per canonical section |
| Composer.HtmlAt | src/App.tsx:78-105 | reading the table at a key gives that section's fragment, and nothing for a key outside the table |
| Composer.MapSectionsSpec | src/App.tsx:102-109 | after the mapping loop each field holds its earlier content followed by every non-empty fragment mapped to it, in section order and joined by `<br><br>`; nothing is overwritten |
| Composer.PartsForHas | src/App.tsx:102-109 | every mapped section with content is among the parts its field receives |
| Composer.UnmappedPartsSpec | src/App.tsx:111-119 | the back parts are exactly the non-empty fragments of the unmapped sections other than the word and the attachments |
| Composer.FirstPassAgreesWhenUnmapped | src/App.tsx:90-119 | the overwritten first pass agrees with the final back text when no text section is mapped |
| Composer.AttachmentTarget | src/App.tsx:122-127 | a non-empty mapping for an attachment's section forces field mode with that field; otherwise the configured target is used |
| Composer.ImageSlots | src/App.tsx:143 | the images are passed on in order, one entry each |
| Composer.Compose | src/App.tsx:67-146 | `front` is the trimmed word; `fields` is always passed and holds the front field; deck, model, field names, the two audio files, the images in order and the duplicate flag are passed through; no tags |
| Composer.ComposedFieldContents | src/App.tsx:99-136 | each composed field holds, in section order, the fragments mapped to it, after the trimmed word in the front field; a field is present exactly when it is the front field or something is mapped to it |
| Composer.ComposedBack | src/App.tsx:111-119 | the back text joins exactly the unmapped text fragments |
| Composer.BlankFormHasEmptyBack | src/App.tsx:78-119 | when every text section other than the word is blank, the back text is empty |
| Composer.AnnotationsIgnored | src/App.tsx:68-76 | the meme-mode and modified-syntax flags change nothing that is sent |
| Composer.TargetWordMappedToFront | src/App.tsx:101-109 | the word is not excluded from the mapping loop, so mapping it to the front field repeats it there as `<strong>Word</strong><br>` plus the word |
| Composer.SinglePart | src/App.tsx:102-109 | when only one section, listed once, maps to a field, that field receives exactly its fragment |
| Pipeline.AttachmentPlacement | src/App.tsx:122-145 | end to end, an audio clip lands in its mapped field when there is one, else in the field its mode names (`''` for none); images land in their mapped field, else in the back field |
| Pipeline.ResolveTarget | src/App.tsx:139-142 | field mode is sent as `none` plus the field name, and the other modes as themselves, which resolves to the field the mode names |
| Pipeline.MergeExtends | src/services/ankiService.ts:147-194 | merging markers keeps every field and only appends to it |
| Pipeline.PreparedNoteExtends | src/services/ankiService.ts:132-194 | the fields of the note that is added extend the fields given to `sendToAnki` |
| Pipeline.ReadableIffPrepared | src/services/ankiService.ts:124-130 | the composed record is prepared for sending exactly when the sentence audio, the word audio and every image the form attaches can be read |
| Pipeline.MappedSectionReachesNote | src/App.tsx:102-109 | when every attached file can be read, the note is prepared and the fragment of a mapped section whose text is not blank occurs in its field of that note |
| Pipeline.FrontReachesNote | src/App.tsx:68-101 | when every attached file can be read, the note is prepared and the trimmed word occurs in its front field |
| Pipeline.BackIgnored | src/services/ankiService.ts:132-135 | once `fields` is passed, the `back` value has no effect on the submission |
| Pipeline.ComposedBackNeverSent | src/App.tsx:119-136 | the composed record always passes `fields`, so the composed back text has no effect on the submission |
| Pipeline.UnmappedSectionsDropped | src/App.tsx:99-136 | with nothing mapped and nothing attached, the note holds only the trimmed word in the front field, whatever the other sections contain; "nothing mapped" means `sectionToField` is empty or holds only the `''` that "Append to Back" stores |
| Pipeline.DefinitionLost | src/App.tsx:78-136 | a form with a word and a definition on unmapped settings (no mapping, or only `''` entries) composes the definition into the back text, yet the note holds only the word |
| Pipeline.ComposeCorrected | src/App.tsx:119-136 | the corrected record differs from the composed one only in its fields, which extend the composed fields |
| Pipeline.AppendBack | src/App.tsx:119 | adding the back text to the back field keeps every field's earlier content and appends the back text with `<br><br>` |
| Pipeline.CorrectedKeepsEverySection | src/App.tsx:102-119 | with the correction and every attached file readable, the fragment of every text section whose text is not blank reaches the note: a mapped one in its field, an unmapped one in the back field |

## Left out

- Network transport: the XHR call, the endpoint choice and the 5-second timeout are out of scope. Each call's result is a `Reply` parameter, and a timeout or network error is one of its values.
- `FileReader`: the base64 encoding is not modelled. A file carries the data URL the reader would yield, or none when the read fails.
- The fetching of deck, model and field names in the settings dialog is left out: it is asynchronous I/O whose only effect is the list of options offered.
- `src/utils/storage.ts` is not part of this model; it wraps `localStorage` and `JSON.parse`. `Load` takes the stored value as an optional parameter. A corrupt blob is treated like a missing one.
- The submit handler's status messages, loading flag and form reset are UI state and are left out.
- JSON numbers are integers only. Floating point plays no part in the response check.
- `AnkiService.Validate`: a truthy `error` is returned as the JSON value, not as `String(error)`.
- `AnkiService.Validate`: `OwnPropertyCount` counts a string reply's characters, where `getOwnPropertyNames` counts UTF-16 code units. Only a one-character string outside the Basic Multilingual Plane is affected: it fails here as a missing `result` instead of an unexpected field count.
- `AnkiService.Validate`: keys inherited from `Object.prototype` (`toString`, `constructor`, ...) are not modelled. A response can only carry its own keys.
- Keys that name an `Object.prototype` member (such as `constructor`) are not modelled. In `sectionOrder` such a key reads as an empty fragment here and as unmapped in `sectionToField`. The source would read a function there. Such keys survive only in hand-edited storage.
- `Settings.Normalize`: stored fields with the wrong JSON type are not modelled, only present or absent ones. The same holds for extra keys carried along by the object spread.
- The submit handler loads the settings itself, without normalising them (`src/App.tsx:17`). So `Composer` accepts any `sectionOrder`, including unknown or repeated keys. A stored object missing any setting the handler reads would make it throw. Examples are `sectionToField`, `sectionOrder` (`forEach` at `src/App.tsx:91`), and `audio1Target` or `audio2Target` when that audio section is unmapped (`a1.mode` at `src/App.tsx:139`). The settings dialog never stores such an object.
- `Text.Trim`: `trim` works on UTF-16 code units; here strings are sequences of characters, and the whitespace set is written out.
- The `images` guard in `sendToAnki` skips a null encoding. Null only comes from a null entry in the list, which `Composer` never produces; `AnkiService` still models it.
- The annotated `sections` list of the submit handler (`src/App.tsx:68-76`) is never read afterwards. It is not modelled, and `Composer.AnnotationsIgnored` states that its two flags have no effect.
- The audio select's `mode as any` stores an unknown mode token as is. Here such a token decodes to nothing; no rendered option carries one.
- `sendToAnki` writes the markers into the caller's `fields` object in place. The model builds a new map instead. Nothing reads that object after the call.
- The spread `{...state, ...patch}` in `update` is modelled with an optional value per setting. A patch cannot set a setting to `undefined`.

The application's own text promises that unmapped sections reach the back field: the comment on `sectionToField` (src/components/SettingsModal.tsx:12) and the hint above the section list (src/components/SettingsModal.tsx:203). The submit handler never sends them; the model follows the code (see Findings).

## Findings

| source | as written | input that shows it | evidently intended | confidence | as-written member | corrected member |
|---|---|---|---|---|---|---|
| src/App.tsx:99-136 | `fields` always contains `frontFieldName`, so `Object.keys(fields).length ? fields : undefined` always passes `fields`. `sendToAnki` then uses `fields` and ignores `back`, so no unmapped section reaches the note | default settings, word `ubiquitous`, definition `existing everywhere`: the note's fields are `{Front: "ubiquitous"}` while `back` is `<strong>Definition</strong><br>existing everywhere` | the unmapped sections' back text is written to the back field, after anything already routed there | high, not executed | Pipeline.DefinitionLost | Pipeline.CorrectedKeepsEverySection |

=== FILE: anki.dfy ===
/**
 * The AnkiConnect client: media encoding, the response-shape check of every
 * call, and `sendToAnki`, which stores the media files, merges their markers
 * into the note's fields and adds the note.
 *
 * The transport is abstract: the remote side is a sequence of replies, the
 * i-th answering the i-th call, and a call left without a reply times out.
 */
module AnkiService {
  import opened Wrappers
  import opened Text

  /** The AnkiConnect protocol version every call is made with. */
  const ApiVersion: nat := 6

  /* ---------------- media encoding ---------------- */

  /**
   * A selected file: its name and the data URL `readAsDataURL` produces for it,
   * or `None` when the browser fails to read it.
   */
  datatype File = File(name: string, dataUrl: Option<string>)

  /** `{ filename, data }`: a file name and the base64 payload of its contents. */
  datatype Encoded = Encoded(filename: string, data: string)

  /** The part of a data URL after its first comma (all of it when there is none). */
  function StripDataUrlPrefix(url: string): string {
    url[IndexOf(url, ',') + 1..]
  }

  /**
   * The payload is everything after the first comma of the data URL, and the
   * whole URL when it has no comma.
   */
  lemma StripDataUrlPrefixSpec(header: string, payload: string, url: string)
    ensures ',' !in url ==> StripDataUrlPrefix(url) == url
    ensures ',' !in header ==> StripDataUrlPrefix(header + "," + payload) == payload
  {
    if ',' !in header {
      var s := header + "," + payload;
      var k := IndexOf(s, ',');
      assert s[|header|] == ',';
      assert k <= |header|;
      assert k >= |header| by {
        assert forall i :: 0 <= i < |header| ==> s[i] == header[i];
      }
      assert s[k + 1..] == payload;
    }
  }

  /** The ways a submission can fail: a thrown `Error` and where it came from. */
  datatype Failure =
    | ReadFailed(filename: string)   // the FileReader reported an error
    | RequestFailed                  // 'Failed to issue request.'
    | TimedOut                       // 'AnkiConnect request timed out.'
    | InvalidJson                    // the reply text is not JSON
    | NullResponse                   // the reply is JSON `null`: no own properties to list
    | UnexpectedFieldCount           // 'Response has an unexpected number of fields.'
    | MissingResult                  // "Response is missing required 'result' field."
    | MissingError                   // "Response is missing required 'error' field."
    | RemoteError(error: JsonValue)  // AnkiConnect's own truthy `error`

  /** `getBase64`: no file gives no encoding; a readable file gives its name and payload. */
  function GetBase64(file: Option<File>): (r: Result<Option<Encoded>, Failure>)
    ensures file.None? ==> r == Success(None)
    ensures file.Some? && file.value.dataUrl.None? ==> r == Failure(ReadFailed(file.value.name))
    ensures file.Some? && file.value.dataUrl.Some? ==>
      && r.Success? && r.value.Some?
      && r.value.value.filename == file.value.name
      && r.value.value.data == StripDataUrlPrefix(file.value.dataUrl.value)
  {
    match file
    case None => Success(None)
    case Some(f) =>
      match f.dataUrl
      case None => Failure(ReadFailed(f.name))
      case Some(url) => Success(Some(Encoded(f.name, StripDataUrlPrefix(url))))
  }

  /* ---------------- the response-shape check ---------------- */

  /** A parsed JSON value (numbers restricted to integers). */
  datatype JsonValue =
    | JNull
    | JBool(b: bool)
    | JNumber(n: int)
    | JString(s: string)
    | JArray(items: seq<JsonValue>)
    | JObject(members: map<string, JsonValue>)

  /** JavaScript truthiness of a JSON value. */
  predicate Truthy(v: JsonValue) {
    match v
    case JNull => false
    case JBool(b) => b
    case JNumber(n) => n != 0
    case JString(s) => s != ""
    case JArray(_) => true
    case JObject(_) => true
  }

  /** `Object.getOwnPropertyNames(v).length` for a non-null value. */
  function OwnPropertyCount(v: JsonValue): nat
    requires !v.JNull?
  {
    match v
    case JString(s) => |s| + 1
    case JArray(items) => |items| + 1
    case JObject(m) => |m|
    case _ => 0
  }

  /** What the remote side does with one call. */
  datatype Reply =
    | Delivered(body: Option<JsonValue>)  // a response arrived; `None` when it is not JSON
    | Unreachable                          // the request could not be issued
    | Silent                               // no response within the timeout

  lemma TwoKeys(keys: set<string>)
    ensures |keys| == 2 && "result" in keys && "error" in keys <==> keys == {"result", "error"}
  {
    if |keys| == 2 && "result" in keys && "error" in keys {
      var rest := keys - {"result", "error"};
      assert keys == rest + {"result", "error"};
      assert |rest| == 0;
    }
  }

  /**
   * The `load` handler of `ankiConnectInvoke` on a parsed response: accepted only
   * with exactly the two own keys `result` and `error`; a truthy `error` is thrown
   * as is; otherwise `result` is the call's value.
   */
  function Validate(v: JsonValue): (r: Result<JsonValue, Failure>)
    ensures r.Success? <==> v.JObject? && v.members.Keys == {"result", "error"} && !Truthy(v.members["error"])
    ensures r.Success? ==> r.value == v.members["result"]
    ensures v.JObject? && v.members.Keys == {"result", "error"} && Truthy(v.members["error"]) ==>
              r == Failure(RemoteError(v.members["error"]))
    ensures !v.JObject? && !v.JNull? && OwnPropertyCount(v) != 2 ==> r == Failure(UnexpectedFieldCount)
    ensures v.JObject? && |v.members| != 2 ==> r == Failure(UnexpectedFieldCount)
    ensures v.JNull? ==> r == Failure(NullResponse)
    ensures v.JObject? && |v.members| == 2 && "result" !in v.members ==> r == Failure(MissingResult)
    ensures v.JObject? && |v.members| == 2 && "result" in v.members && "error" !in v.members ==> r == Failure(MissingError)
    ensures !v.JObject? && !v.JNull? && OwnPropertyCount(v) == 2 ==> r == Failure(MissingResult)
  {
    match v
    case JNull => Failure(NullResponse)
    case JObject(m) =>
      TwoKeys(m.Keys);
      if |m| != 2 then Failure(UnexpectedFieldCount)
      else if "result" !in m then Failure(MissingResult)
      else if "error" !in m then Failure(MissingError)
      else if Truthy(m["error"]) then Failure(RemoteError(m["error"]))
      else Success(m["result"])
    case _ =>
      // strings and arrays own only their indices and `length`, never `result`
      if OwnPropertyCount(v) != 2 then Failure(UnexpectedFieldCount) else Failure(MissingResult)
  }

  /**
   * A response holding `result`, `error` and any third key is a protocol
   * violation, whatever its `error` says.
   */
  lemma ThreeKeysRejected(result: JsonValue, error: JsonValue, k: string, extra: JsonValue)
    requires k != "result" && k != "error"
    ensures Validate(JObject(map["result" := result, "error" := error, k := extra])) == Failure(UnexpectedFieldCount)
  {
    var m := map["result" := result, "error" := error, k := extra];
    assert m.Keys == {"result", "error"} + {k};
    assert |{"result", "error"}| == 2;
  }

  /** `ankiConnectInvoke` as seen by its caller: the call's value or the error it throws. */
  function Invoke(reply: Reply): (r: Result<JsonValue, Failure>)
    ensures reply.Unreachable? ==> r == Failure(RequestFailed)
    ensures reply.Silent? ==> r == Failure(TimedOut)
    ensures reply == Delivered(None) ==> r == Failure(InvalidJson)
    ensures reply.Delivered? && reply.body.Some? ==> r == Validate(reply.body.value)
  {
    match reply
    case Unreachable => Failure(RequestFailed)
    case Silent => Failure(TimedOut)
    case Delivered(None) => Failure(InvalidJson)
    case Delivered(Some(v)) => Validate(v)
  }

  /* ---------------- sendToAnki ---------------- */

  /** The `'front' | 'back' | 'none'` placement of a group of media markers. */
  datatype Placement = PFront | PBack | PNone

  /** `CardData`: what the form hands to `sendToAnki`; optional members are `Option`s. */
  datatype CardData = CardData(
    deckName: string,
    modelName: string,
    frontFieldName: string,
    backFieldName: string,
    front: string,
    back: string,
    fields: Option<map<string, string>>,
    audio1: Option<File>,
    audio2: Option<File>,
    appendAudio1To: Option<Placement>,
    appendAudio2To: Option<Placement>,
    appendAudio1ToFieldName: Option<string>,
    appendAudio2ToFieldName: Option<string>,
    images: Option<seq<Option<File>>>,
    appendImagesTo: Option<Placement>,
    appendImagesToFieldName: Option<string>,
    allowDuplicate: Option<bool>,
    tags: Option<seq<string>>)

  /** The note passed to `addNote`. */
  datatype Note = Note(
    deckName: string,
    modelName: string,
    fields: map<string, string>,
    allowDuplicate: bool,
    tags: seq<string>)

  /** One AnkiConnect call. */
  datatype Request =
    | StoreMediaFile(filename: string, data: string)
    | AddNote(note: Note)

  /** The card's optional members with the defaults of the destructuring filled in. */
  datatype Options = Options(
    audio1To: Placement,
    audio2To: Placement,
    images: seq<Option<File>>,
    imagesTo: Placement,
    allowDuplicate: bool,
    tags: seq<string>)

  function WithDefaults(card: CardData): (o: Options)
    ensures card.appendAudio1To.None? ==> o.audio1To == PFront
    ensures card.appendAudio2To.None? ==> o.audio2To == PBack
    ensures card.images.None? ==> o.images == []
    ensures card.appendImagesTo.None? ==> o.imagesTo == PBack
    ensures card.allowDuplicate.None? ==> !o.allowDuplicate
    ensures card.tags.None? ==> o.tags == ["web-creator"]
    ensures card.appendAudio1To.Some? ==> o.audio1To == card.appendAudio1To.value
    ensures card.appendAudio2To.Some? ==> o.audio2To == card.appendAudio2To.value
    ensures card.images.Some? ==> o.images == card.images.value
    ensures card.appendImagesTo.Some? ==> o.imagesTo == card.appendImagesTo.value
    ensures card.allowDuplicate.Some? ==> o.allowDuplicate == card.allowDuplicate.value
    ensures card.tags.Some? ==> o.tags == card.tags.value
  {
    Options(
      card.appendAudio1To.GetOr(PFront), card.appendAudio2To.GetOr(PBack),
      card.images.GetOr([]), card.appendImagesTo.GetOr(PBack),
      card.allowDuplicate.GetOr(false), card.tags.GetOr(["web-creator"]))
  }

  /**
   * `fields[name] || ''`: a field's content, and also the `keyToHtml[key]` and
   * `sectionToField[key] || ''` lookups of the form, `""` when the key is absent.
   */
  function Get(fields: map<string, string>, name: string): string {
    if name in fields then fields[name] else ""
  }

  /**
   * The field a group of markers goes to: a non-empty explicit name wins, then the
   * placement picks the front or back field; `""` means "do not append".
   */
  function ResolveField(explicit: Option<string>, placement: Placement,
                        frontFieldName: string, backFieldName: string): (r: string)
    ensures explicit.GetOr("") != "" ==> r == explicit.value
    ensures explicit.GetOr("") == "" ==>
      r == (match placement case PFront => frontFieldName case PBack => backFieldName case PNone => "")
  {
    if explicit.Some? && explicit.value != "" then explicit.value
    else match placement
      case PFront => frontFieldName
      case PBack => backFieldName
      case PNone => ""
  }

  /** The name under which a file is stored in Anki's media folder. */
  function StoredName(filename: string): string {
    "_" + filename
  }

  function SoundMarker(filename: string): string {
    "[sound:" + StoredName(filename) + "]"
  }

  function ImageTag(filename: string): string {
    "<img src=\"" + StoredName(filename) + "\" />"
  }

  function ImageTags(media: seq<Encoded>): (r: seq<string>)
    ensures |r| == |media|
    ensures forall i :: 0 <= i < |media| ==> r[i] == ImageTag(media[i].filename)
  {
    seq(|media|, i requires 0 <= i < |media| => ImageTag(media[i].filename))
  }

  /**
   * Appending a sound marker: the existing content (or nothing) followed directly
   * by the marker; every other field is left alone.
   */
  function AppendSound(fields: map<string, string>, target: string, filename: string): (r: map<string, string>)
    ensures target == "" ==> r == fields
    ensures target != "" ==> r.Keys == fields.Keys + {target}
    ensures target != "" ==> r[target] == Get(fields, target) + SoundMarker(filename)
    ensures forall f :: f != target && f in fields ==> f in r && r[f] == fields[f]
  {
    if target == "" then fields else fields[target := Get(fields, target) + SoundMarker(filename)]
  }

  lemma ImageHtmlNonEmpty(media: seq<Encoded>)
    requires |media| > 0
    ensures Join(ImageTags(media), "<br>") != ""
  {
    JoinOfNonEmptyIsNonEmpty(ImageTags(media), "<br>");
  }

  /**
   * Appending the image tags, `<br>`-joined, after the existing content, with a
   * `<br>` in between only when that content is non-empty; every other field is left alone.
   */
  function AppendImages(fields: map<string, string>, target: string, media: seq<Encoded>): (r: map<string, string>)
    requires |media| > 0
    ensures target == "" ==> r == fields
    ensures target != "" ==> r.Keys == fields.Keys + {target}
    ensures target != "" ==> r[target] == AppendPart(Get(fields, target), Join(ImageTags(media), "<br>"), "<br>")
    ensures forall f :: f != target && f in fields ==> f in r && r[f] == fields[f]
  {
    var html := Join(ImageTags(media), "<br>");
    ImageHtmlNonEmpty(media);
    if target == "" then fields
    else fields[target := JoinNonEmpty([Get(fields, target), html], "<br>")]
  }

  /** The files among the selected images, in selection order. */
  function PresentFiles(images: seq<Option<File>>): (r: seq<File>)
    ensures |r| <= |images|
    ensures forall f {:trigger f in r} :: f in r <==> Some(f) in images
    decreases |images|
  {
    if |images| == 0 then []
    else
      var init := PresentFiles(images[..|images| - 1]);
      assert images == images[..|images| - 1] + [images[|images| - 1]];
      match images[|images| - 1]
      case None => init
      case Some(f) => init + [f]
  }

  /**
   * The loop over the images: every file is encoded in order, the first read
   * error aborts, and a missing encoding is skipped.
   */
  function EncodeImages(images: seq<Option<File>>): (r: Result<seq<Encoded>, Failure>)
    ensures r.Success? <==> forall i :: 0 <= i < |PresentFiles(images)| ==> PresentFiles(images)[i].dataUrl.Some?
    ensures r.Success? ==> |r.value| == |PresentFiles(images)|
    ensures r.Success? ==> forall i :: 0 <= i < |r.value| ==>
              r.value[i] == Encoded(PresentFiles(images)[i].name, StripDataUrlPrefix(PresentFiles(images)[i].dataUrl.value))
    decreases |images|
  {
    if |images| == 0 then Success([])
    else
      var init := images[..|images| - 1];
      assert PresentFiles(images) == PresentFiles(init) + OptionalSeq(images[|images| - 1]);
      match EncodeImages(init)
      case Failure(e) =>
        assert forall i :: 0 <= i < |PresentFiles(init)| ==> PresentFiles(images)[i] == PresentFiles(init)[i];
        Failure(e)
      case Success(done) =>
        match GetBase64(images[|images| - 1])
        case Failure(e) =>
          assert PresentFiles(images)[|PresentFiles(init)|] == images[|images| - 1].value;
          Failure(e)
        case Success(None) => Success(done)
        case Success(Some(d)) => Success(done + [d])
  }

  /** Everything `sendToAnki` decides before its first call: the media to store and the note. */
  datatype Submission = Submission(media: seq<Encoded>, note: Note)

  function OptionalSeq<T>(o: Option<T>): seq<T> {
    match o
    case None => []
    case Some(x) => [x]
  }

  /** The fields before any marker: `fields ?? { [front]: front, [back]: back }`. */
  function BaseFields(card: CardData): (r: map<string, string>)
    ensures card.fields.Some? ==> r == card.fields.value
    ensures card.fields.None? ==> r.Keys == {card.frontFieldName, card.backFieldName}
    ensures card.fields.None? ==> r[card.backFieldName] == card.back
    ensures card.fields.None? && card.frontFieldName != card.backFieldName ==>
              r[card.frontFieldName] == card.front
  {
    match card.fields
    case Some(m) => m
    case None => map[card.frontFieldName := card.front][card.backFieldName := card.back]
  }

  function Audio1Field(card: CardData): string {
    ResolveField(card.appendAudio1ToFieldName, WithDefaults(card).audio1To, card.frontFieldName, card.backFieldName)
  }

  function Audio2Field(card: CardData): string {
    ResolveField(card.appendAudio2ToFieldName, WithDefaults(card).audio2To, card.frontFieldName, card.backFieldName)
  }

  function ImagesField(card: CardData): string {
    ResolveField(card.appendImagesToFieldName, WithDefaults(card).imagesTo, card.frontFieldName, card.backFieldName)
  }

  /** The note's fields once the markers of the encoded media are merged in. */
  function MergeMarkers(card: CardData, a1: Option<Encoded>, a2: Option<Encoded>, imgs: seq<Encoded>): map<string, string> {
    var f2 := WithSounds(card, a1, a2);
    if |imgs| > 0 then AppendImages(f2, ImagesField(card), imgs) else f2
  }

  /** The base fields with the marker of audio 1, then of audio 2, appended where each is routed. */
  function WithSounds(card: CardData, a1: Option<Encoded>, a2: Option<Encoded>): map<string, string> {
    var base := BaseFields(card);
    var f1 := if a1.Some? then AppendSound(base, Audio1Field(card), a1.value.filename) else base;
    if a2.Some? then AppendSound(f1, Audio2Field(card), a2.value.filename) else f1
  }

  /** The encodings of the two audio clips and of the images. */
  datatype Encodings = Encodings(audio1: Option<Encoded>, audio2: Option<Encoded>, images: seq<Encoded>) {
    /** The media in the order they are stored. */
    function Media(): seq<Encoded> {
      OptionalSeq(audio1) + OptionalSeq(audio2) + images
    }
  }

  /** Audio 1, audio 2, then the images, each awaited in turn; the first read error aborts. */
  function EncodeAll(audio1: Option<File>, audio2: Option<File>, images: seq<Option<File>>): Result<Encodings, Failure> {
    match GetBase64(audio1)
    case Failure(e) => Failure(e)
    case Success(a1) =>
      match GetBase64(audio2)
      case Failure(e) => Failure(e)
      case Success(a2) =>
        match EncodeImages(images)
        case Failure(e) => Failure(e)
        case Success(imgs) => Success(Encodings(a1, a2, imgs))
  }

  /**
   * All the encoding and field merging of `sendToAnki`: the encodings happen
   * first, so a read error aborts before any call.
   */
  function Prepare(card: CardData): (r: Result<Submission, Failure>)
    ensures var enc := EncodeAll(card.audio1, card.audio2, WithDefaults(card).images);
      r.Success? <==> enc.Success?
    ensures var enc := EncodeAll(card.audio1, card.audio2, WithDefaults(card).images);
      r.Failure? ==> r.error == enc.error
    ensures var enc := EncodeAll(card.audio1, card.audio2, WithDefaults(card).images);
      r.Success? ==> && r.value.media == enc.value.Media()
                     && r.value.note.fields == MergeMarkers(card, enc.value.audio1, enc.value.audio2, enc.value.images)
    ensures r.Success? ==> r.value.note.deckName == card.deckName && r.value.note.modelName == card.modelName
    ensures r.Success? ==> r.value.note.allowDuplicate == WithDefaults(card).allowDuplicate
    ensures r.Success? ==> r.value.note.tags == WithDefaults(card).tags
  {
    var opts := WithDefaults(card);
    match EncodeAll(card.audio1, card.audio2, opts.images)
    case Failure(e) => Failure(e)
    case Success(enc) =>
      var fields := MergeMarkers(card, enc.audio1, enc.audio2, enc.images);
      Success(Submission(enc.Media(), Note(card.deckName, card.modelName, fields, opts.allowDuplicate, opts.tags)))
  }

  /** The calls of a submission: one `storeMediaFile` per medium, in order, then `addNote`. */
  function Calls(sub: Submission): (r: seq<Request>)
    ensures |r| == |sub.media| + 1
    ensures r[|r| - 1] == AddNote(sub.note)
    ensures forall i :: 0 <= i < |sub.media| ==>
              r[i] == StoreMediaFile(StoredName(sub.media[i].filename), sub.media[i].data)
  {
    seq(|sub.media|, i requires 0 <= i < |sub.media| =>
          StoreMediaFile(StoredName(sub.media[i].filename), sub.media[i].data))
      + [AddNote(sub.note)]
  }

  /** The calls that were issued and the value of the last one, or the error that ended the run. */
  datatype Outcome = Outcome(issued: seq<Request>, result: Result<JsonValue, Failure>)

  /** The reply to the i-th call; a call nobody answers times out. */
  function ReplyAt(replies: seq<Reply>, i: nat): Reply {
    if i < |replies| then replies[i] else Silent
  }

  /**
   * Awaiting the calls one after another: the first failing call ends the run,
   * and when none fails the value of the last call is the result.
   */
  function Execute(calls: seq<Request>, replies: seq<Reply>): (o: Outcome)
    requires |calls| > 0
    ensures 0 < |o.issued| <= |calls| && o.issued == calls[..|o.issued|]
    ensures forall i :: 0 <= i < |o.issued| - 1 ==> Invoke(ReplyAt(replies, i)).Success?
    ensures o.result == Invoke(ReplyAt(replies, |o.issued| - 1))
    ensures o.result.Success? ==> o.issued == calls
    decreases |calls|
  {
    var first := Invoke(ReplyAt(replies, 0));
    if first.Failure? || |calls| == 1 then Outcome([calls[0]], first)
    else
      var later := if |replies| > 0 then replies[1..] else [];
      var rest := Execute(calls[1..], later);
      var o := Outcome([calls[0]] + rest.issued, rest.result);
      assert o.issued == calls[..|o.issued|] by {
        assert rest.issued == calls[1..][..|rest.issued|];
        assert calls[..|o.issued|] == [calls[0]] + calls[1..][..|rest.issued|];
      }
      forall i | 0 <= i < |o.issued| - 1
        ensures Invoke(ReplyAt(replies, i)).Success?
      {
        if i > 0 {
          ReplyAtShift(replies, later, i - 1);
        }
      }
      var last := |rest.issued| - 1;
      ReplyAtShift(replies, later, last);
      o
  }

  /** Dropping the first reply shifts every later reply down by one. */
  lemma ReplyAtShift(replies: seq<Reply>, later: seq<Reply>, i: nat)
    requires later == if |replies| > 0 then replies[1..] else []
    ensures ReplyAt(later, i) == ReplyAt(replies, i + 1)
  {
  }

  /** `sendToAnki`: prepare, then issue the calls in order; the result is `addNote`'s value. */
  function SendToAnki(card: CardData, replies: seq<Reply>): (o: Outcome)
    ensures Prepare(card).Failure? ==> o == Outcome([], Failure(Prepare(card).error))
    ensures Prepare(card).Success? ==>
              && 0 < |o.issued| <= |Calls(Prepare(card).value)|
              && o.issued == Calls(Prepare(card).value)[..|o.issued|]
              && (forall i :: 0 <= i < |o.issued| - 1 ==> Invoke(ReplyAt(replies, i)).Success?)
              && o.result == Invoke(ReplyAt(replies, |o.issued| - 1))
    ensures o.result.Success? ==> o.issued == Calls(Prepare(card).value)
  {
    match Prepare(card)
    case Failure(e) => Outcome([], Failure(e))
    case Success(sub) => Execute(Calls(sub), replies)
  }

  /* ---------------- properties of sendToAnki ---------------- */

  /** The marker a sound contributes to field `f`, or nothing. */
  function SoundFor(a: Option<Encoded>, target: string, f: string): string {
    if a.Some? && target != "" && target == f then SoundMarker(a.value.filename) else ""
  }

  /** The `<br>`-joined image tags the images contribute to field `f`, or nothing. */
  function ImagesFor(imgs: seq<Encoded>, target: string, f: string): string {
    if |imgs| > 0 && target != "" && target == f then Join(ImageTags(imgs), "<br>") else ""
  }

  lemma GetAppendSound(fields: map<string, string>, target: string, a: Option<Encoded>, f: string)
    ensures var r := if a.Some? then AppendSound(fields, target, a.value.filename) else fields;
      && (f in r <==> f in fields || SoundFor(a, target, f) != "")
      && Get(r, f) == Get(fields, f) + SoundFor(a, target, f)
  {
  }

  lemma GetAppendImages(fields: map<string, string>, target: string, imgs: seq<Encoded>, f: string)
    ensures var r := if |imgs| > 0 then AppendImages(fields, target, imgs) else fields;
      var pics := ImagesFor(imgs, target, f);
      && (f in r <==> f in fields || pics != "")
      && Get(r, f) == (if pics == "" then Get(fields, f) else JoinNonEmpty([Get(fields, f), pics], "<br>"))
  {
    if |imgs| > 0 {
      ImageHtmlNonEmpty(imgs);
    }
  }

  /**
   * Field by field, the merged note holds the field's base content, then the
   * sound marker of audio 1, then that of audio 2 (no separators), then the image
   * tags after a `<br>` when there is content before them. A field is present
   * exactly when it was already there or some marker was routed to it.
   */
  lemma NoteFieldsLayout(card: CardData, a1: Option<Encoded>, a2: Option<Encoded>, imgs: seq<Encoded>, f: string)
    ensures var merged := MergeMarkers(card, a1, a2, imgs);
      var base := BaseFields(card);
      var s1 := SoundFor(a1, Audio1Field(card), f);
      var s2 := SoundFor(a2, Audio2Field(card), f);
      var pics := ImagesFor(imgs, ImagesField(card), f);
      && (f in merged <==> (f in base || s1 != "" || s2 != "" || pics != ""))
      && Get(merged, f) == (if pics == "" then Get(base, f) + s1 + s2
                            else JoinNonEmpty([Get(base, f) + s1 + s2, pics], "<br>"))
  {
    TwoSounds(card, a1, a2, f);
    GetAppendImages(WithSounds(card, a1, a2), ImagesField(card), imgs, f);
  }

  /** After both sounds are appended, a field holds its base text, then audio 1's marker, then audio 2's. */
  lemma TwoSounds(card: CardData, a1: Option<Encoded>, a2: Option<Encoded>, f: string)
    ensures var base := BaseFields(card);
      var s1 := SoundFor(a1, Audio1Field(card), f);
      var s2 := SoundFor(a2, Audio2Field(card), f);
      && Get(WithSounds(card, a1, a2), f) == Get(base, f) + s1 + s2
      && (f in WithSounds(card, a1, a2) <==> (f in base || s1 != "" || s2 != ""))
  {
    var base := BaseFields(card);
    var f1 := if a1.Some? then AppendSound(base, Audio1Field(card), a1.value.filename) else base;
    GetAppendSound(base, Audio1Field(card), a1, f);
    GetAppendSound(f1, Audio2Field(card), a2, f);
  }

  /** Merging markers never overwrites: the base content of every field is a prefix of its final content. */
  lemma MergeNeverOverwrites(card: CardData, a1: Option<Encoded>, a2: Option<Encoded>, imgs: seq<Encoded>, f: string)
    ensures Get(BaseFields(card), f) <= Get(MergeMarkers(card, a1, a2, imgs), f)
  {
    NoteFieldsLayout(card, a1, a2, imgs, f);
    var base := BaseFields(card);
    var sounds := Get(base, f) + SoundFor(a1, Audio1Field(card), f) + SoundFor(a2, Audio2Field(card), f);
    var pics := ImagesFor(imgs, ImagesField(card), f);
    assert Get(base, f) <= sounds;
    if pics != "" {
      var r := AppendPart(sounds, pics, "<br>");
      assert sounds <= r;
      assert r == JoinNonEmpty([sounds, pics], "<br>");
    }
  }

  /** The files `EncodeAll` reads, in the order it reads them. */
  function FilesRead(audio1: Option<File>, audio2: Option<File>, images: seq<Option<File>>): seq<File> {
    OptionalSeq(audio1) + OptionalSeq(audio2) + PresentFiles(images)
  }

  /** Every file `sendToAnki` encodes, in the order it encodes them. */
  function Attachments(card: CardData): seq<File> {
    FilesRead(card.audio1, card.audio2, WithDefaults(card).images)
  }

  predicate Readable(f: File) {
    f.dataUrl.Some?
  }

  lemma EncodeImagesFailure(images: seq<Option<File>>)
    requires EncodeImages(images).Failure?
    ensures exists i :: 0 <= i < |PresentFiles(images)| && !Readable(PresentFiles(images)[i])
                && EncodeImages(images).error == ReadFailed(PresentFiles(images)[i].name)
                && forall j :: 0 <= j < i ==> Readable(PresentFiles(images)[j])
  {
    var i := FirstUnreadable(images);
  }

  /** The position of the file whose read error stopped the encoding. */
  lemma {:induction false} FirstUnreadable(images: seq<Option<File>>) returns (i: nat)
    requires EncodeImages(images).Failure?
    ensures i < |PresentFiles(images)| && !Readable(PresentFiles(images)[i])
    ensures EncodeImages(images).error == ReadFailed(PresentFiles(images)[i].name)
    ensures forall j :: 0 <= j < i ==> Readable(PresentFiles(images)[j])
    decreases |images|
  {
    var init := images[..|images| - 1];
    var present := PresentFiles(images);
    assert present == PresentFiles(init) + OptionalSeq(images[|images| - 1]);
    if EncodeImages(init).Failure? {
      i := FirstUnreadable(init);
      assert forall j :: 0 <= j <= i ==> present[j] == PresentFiles(init)[j];
    } else {
      i := |PresentFiles(init)|;
      assert present[i] == images[|images| - 1].value;
      assert forall j :: 0 <= j < i ==> present[j] == PresentFiles(init)[j];
    }
  }

  /** Encoding two lists in turn, stopping at the first error. */
  function Chain(first: Result<seq<Encoded>, Failure>, second: Result<seq<Encoded>, Failure>): Result<seq<Encoded>, Failure> {
    match first
    case Failure(e) => Failure(e)
    case Success(d) =>
      match second
      case Failure(e) => Failure(e)
      case Success(d2) => Success(d + d2)
  }

  lemma {:induction false} EncodeImagesAppend(xs: seq<Option<File>>, ys: seq<Option<File>>)
    ensures EncodeImages(xs + ys) == Chain(EncodeImages(xs), EncodeImages(ys))
    ensures PresentFiles(xs + ys) == PresentFiles(xs) + PresentFiles(ys)
    decreases |ys|
  {
    if |ys| == 0 {
      assert xs + ys == xs;
      if EncodeImages(xs).Success? {
        assert EncodeImages(xs).value + [] == EncodeImages(xs).value;
      }
    } else {
      var ys' := ys[..|ys| - 1];
      var y := ys[|ys| - 1];
      EncodeImagesAppend(xs, ys');
      assert ys == ys' + [y];
      EncodeChainStep(xs, ys', y);
      PresentFilesStep(xs, ys', y);
    }
  }

  /** One more file after `ys` extends the encoding half of `EncodeImagesAppend` by that file. */
  lemma EncodeChainStep(xs: seq<Option<File>>, ys: seq<Option<File>>, y: Option<File>)
    requires EncodeImages(xs + ys) == Chain(EncodeImages(xs), EncodeImages(ys))
    ensures EncodeImages(xs + (ys + [y])) == Chain(EncodeImages(xs), EncodeImages(ys + [y]))
  {
    SnocAssoc(xs, ys, y);
    EncodeImagesSnoc(xs + ys, y);
    EncodeImagesSnoc(ys, y);
    ChainAssoc(EncodeImages(xs), EncodeImages(ys), EncodeImages([y]));
  }

  /** One more file after `ys` extends the file-list half of `EncodeImagesAppend` by that file. */
  lemma PresentFilesStep(xs: seq<Option<File>>, ys: seq<Option<File>>, y: Option<File>)
    requires PresentFiles(xs + ys) == PresentFiles(xs) + PresentFiles(ys)
    ensures PresentFiles(xs + (ys + [y])) == PresentFiles(xs) + PresentFiles(ys + [y])
  {
    SnocAssoc(xs, ys, y);
    PresentFilesSnoc(xs + ys, y);
    PresentFilesSnoc(ys, y);
    assert PresentFiles(xs) + PresentFiles(ys) + PresentFiles([y])
        == PresentFiles(xs) + (PresentFiles(ys) + PresentFiles([y]));
  }

  /** Encoding a list with one more file is encoding the list, then that file. */
  lemma EncodeImagesSnoc(zs: seq<Option<File>>, y: Option<File>)
    ensures EncodeImages(zs + [y]) == Chain(EncodeImages(zs), EncodeImages([y]))
  {
    var w := zs + [y];
    assert w[..|w| - 1] == zs;
    assert w[|w| - 1] == y;
    EncodeSingle(y);
    if EncodeImages(zs).Success? && GetBase64(y).Success? && GetBase64(y).value.None? {
      assert EncodeImages(zs).value + [] == EncodeImages(zs).value;
    }
  }

  /** The files of a list with one more slot are the list's files, then that slot's. */
  lemma PresentFilesSnoc(zs: seq<Option<File>>, y: Option<File>)
    ensures PresentFiles(zs + [y]) == PresentFiles(zs) + PresentFiles([y])
  {
    var w := zs + [y];
    assert w[..|w| - 1] == zs;
    assert w[|w| - 1] == y;
    EncodeSingle(y);
  }

  lemma SnocAssoc<T>(xs: seq<T>, ys: seq<T>, y: T)
    ensures xs + (ys + [y]) == (xs + ys) + [y]
  {
  }

  lemma ChainAssoc(a: Result<seq<Encoded>, Failure>, b: Result<seq<Encoded>, Failure>, c: Result<seq<Encoded>, Failure>)
    ensures Chain(Chain(a, b), c) == Chain(a, Chain(b, c))
  {
    if a.Success? && b.Success? && c.Success? {
      assert a.value + b.value + c.value == a.value + (b.value + c.value);
    }
  }

  lemma EncodeSingle(a: Option<File>)
    ensures PresentFiles([a]) == OptionalSeq(a)
    ensures GetBase64(a).Failure? ==> EncodeImages([a]) == Failure(GetBase64(a).error)
    ensures GetBase64(a).Success? ==> EncodeImages([a]) == Success(OptionalSeq(GetBase64(a).value))
  {
    assert [a][..0] == [];
    if GetBase64(a).Success? && GetBase64(a).value.Some? {
      assert [] + [GetBase64(a).value.value] == [GetBase64(a).value.value];
    }
  }

  /** Encoding the two clips and the images is encoding the list of all three slots. */
  lemma EncodeAllAsOneList(audio1: Option<File>, audio2: Option<File>, images: seq<Option<File>>)
    ensures FilesRead(audio1, audio2, images) == PresentFiles([audio1, audio2] + images)
    ensures EncodeAll(audio1, audio2, images).Success? <==> EncodeImages([audio1, audio2] + images).Success?
    ensures EncodeAll(audio1, audio2, images).Success? ==>
              EncodeAll(audio1, audio2, images).value.Media() == EncodeImages([audio1, audio2] + images).value
    ensures EncodeAll(audio1, audio2, images).Failure? ==>
              EncodeAll(audio1, audio2, images).error == EncodeImages([audio1, audio2] + images).error
  {
    assert [audio1, audio2] == [audio1] + [audio2];
    EncodeSingle(audio1);
    EncodeSingle(audio2);
    EncodeImagesAppend([audio1], [audio2]);
    EncodeImagesAppend([audio1, audio2], images);
  }

  /**
   * Preparation succeeds exactly when every attachment can be read; otherwise
   * it reports the first one that cannot, before any remote call.
   */
  lemma PrepareSucceedsIffReadable(card: CardData)
    ensures var att := Attachments(card);
      Prepare(card).Success? <==> forall i :: 0 <= i < |att| ==> Readable(att[i])
    ensures var att := Attachments(card);
      Prepare(card).Failure? ==>
        exists i :: 0 <= i < |att| && !Readable(att[i]) && Prepare(card).error == ReadFailed(att[i].name)
                 && forall j :: 0 <= j < i ==> Readable(att[j])
  {
    var images := WithDefaults(card).images;
    EncodeAllAsOneList(card.audio1, card.audio2, images);
    if EncodeAll(card.audio1, card.audio2, images).Failure? {
      assert Prepare(card).Failure?;
      var slots := [card.audio1, card.audio2] + images;
      var att := Attachments(card);
      assert att == PresentFiles(slots);
      EncodeImagesFailure(slots);
      var i :| 0 <= i < |PresentFiles(slots)| && !Readable(PresentFiles(slots)[i])
                && EncodeImages(slots).error == ReadFailed(PresentFiles(slots)[i].name)
                && forall j :: 0 <= j < i ==> Readable(PresentFiles(slots)[j]);
      assert !Readable(att[i]);
    } else {
      assert Prepare(card).Success?;
    }
  }

  /**
   * A successful submission issues `storeMediaFile` for every attachment in
   * encoding order, each under its name prefixed with `_`, and then exactly one `addNote`.
   */
  lemma SuccessfulCallSequence(card: CardData, replies: seq<Reply>)
    requires SendToAnki(card, replies).result.Success?
    ensures Prepare(card).Success?
    ensures var calls := SendToAnki(card, replies).issued;
      var att := Attachments(card);
      && |calls| == |att| + 1
      && (forall i :: 0 <= i < |att| ==>
            Readable(att[i]) && calls[i] == StoreMediaFile(StoredName(att[i].name), StripDataUrlPrefix(att[i].dataUrl.value)))
      && calls[|att|] == AddNote(Prepare(card).value.note)
  {
    PrepareSucceedsIffReadable(card);
    EncodeAllAsOneList(card.audio1, card.audio2, WithDefaults(card).images);
  }
}

=== FILE: composer.dfy ===
/**
 * The composition step of the form's submit handler: trimmed sections become
 * labelled HTML fragments, mapped sections are appended to their fields in
 * section order, the unmapped ones form the back text, and the placement of
 * the audio clips and images is decided before everything is handed to `sendToAnki`.
 */
module Composer {
  import opened Wrappers
  import opened Text
  import opened Settings
  import A = AnkiService
  import Seqs

  /** The form: six text sections, two optional audio files, the images and two flags. */
  datatype FormState = FormState(
    targetWord: string,
    sentence: string,
    sentenceTranslation: string,
    definition: string,
    exampleSentences: string,
    notes: string,
    audioSentence: Option<A.File>,
    audioWord: Option<A.File>,
    images: seq<A.File>,
    memeMode: bool,
    modifySyntax: bool)

  /** The separator between sections in one field. */
  const SectionSep: string := "<br><br>"

  /** A section's fragment: its bold label and trimmed text, or nothing when the trimmed text is empty. */
  function Labelled(title: string, value: string): (r: string)
    ensures r == "" <==> Trim(value) == ""
    ensures r != "" ==> r == "<strong>" + title + "</strong><br>" + Trim(value)
  {
    if Trim(value) == "" then "" else "<strong>" + title + "</strong><br>" + Trim(value)
  }

  /** A section's entry in `keyToHtml`: the text sections are labelled, the attachments have none. */
  function SectionHtml(form: FormState, s: Section): string {
    match s
    case TargetWord => Labelled("Word", form.targetWord)
    case Definition => Labelled("Definition", form.definition)
    case Sentence => Labelled("Sentence", form.sentence)
    case SentenceTranslation => Labelled("Translation", form.sentenceTranslation)
    case ExampleSentences => Labelled("Examples", form.exampleSentences)
    case Notes => Labelled("Notes", form.notes)
    case SentenceAudio => ""
    case WordAudio => ""
    case Images => ""
  }

  /** The text typed into a section; the attachments have none. */
  function SectionText(form: FormState, s: Section): string {
    match s
    case TargetWord => form.targetWord
    case Definition => form.definition
    case Sentence => form.sentence
    case SentenceTranslation => form.sentenceTranslation
    case ExampleSentences => form.exampleSentences
    case Notes => form.notes
    case SentenceAudio => ""
    case WordAudio => ""
    case Images => ""
  }

  /** A section has a fragment exactly when its text is not blank. */
  lemma SectionHtmlNonEmpty(form: FormState, s: Section)
    ensures SectionHtml(form, s) != "" <==> !AllWhitespace(SectionText(form, s))
  {
    TrimEmptyIff(SectionText(form, s));
  }

  /** `keyToHtml`: one entry per section key. */
  function KeyToHtml(form: FormState): (html: map<string, string>)
    ensures html.Keys == set k | k in AllSectionKeys
  {
    map k | k in AllSectionKeys :: SectionHtml(form, SectionOf(k).value)
  }

  /** The keys the back text never takes: the target word and the three attachments. */
  predicate HandledElsewhere(key: string) {
    key == "targetWord" || key == "sentenceAudio" || key == "wordAudio" || key == "images"
  }

  /** One iteration of the mapping loop: a mapped, non-empty fragment is appended to its field. */
  function MapStep(sectionToField: map<string, string>, html: map<string, string>,
                   fields: map<string, string>, key: string): map<string, string>
  {
    var target := A.Get(sectionToField, key);
    if target != "" && A.Get(html, key) != ""
    then fields[target := AppendPart(A.Get(fields, target), A.Get(html, key), SectionSep)]
    else fields
  }

  /** The loop over `sectionOrder` that appends each mapped, non-empty fragment to its field. */
  function MapSections(order: seq<string>, sectionToField: map<string, string>, html: map<string, string>,
                       fields: map<string, string>): map<string, string>
    decreases |order|
  {
    if |order| == 0 then fields
    else MapSections(order[1..], sectionToField, html, MapStep(sectionToField, html, fields, order[0]))
  }

  /** The fragments routed to field `f`, in section order: the reference for `MapSections`. */
  function PartsFor(order: seq<string>, sectionToField: map<string, string>, html: map<string, string>, f: string): (r: seq<string>)
    ensures forall i :: 0 <= i < |r| ==> r[i] != ""
    decreases |order|
  {
    if |order| == 0 then []
    else
      var key := order[0];
      var here := if f != "" && A.Get(sectionToField, key) == f && A.Get(html, key) != "" then [A.Get(html, key)] else [];
      here + PartsFor(order[1..], sectionToField, html, f)
  }

  /** Every mapped, non-empty fragment is among the parts routed to its field. */
  lemma {:induction false} PartsForHas(order: seq<string>, sectionToField: map<string, string>, html: map<string, string>, i: nat)
    requires i < |order|
    requires A.Get(sectionToField, order[i]) != "" && A.Get(html, order[i]) != ""
    ensures A.Get(html, order[i]) in PartsFor(order, sectionToField, html, A.Get(sectionToField, order[i]))
    decreases |order|
  {
    if i > 0 {
      assert order[1..][i - 1] == order[i];
      PartsForHas(order[1..], sectionToField, html, i - 1);
    }
  }

  /**
   * After the loop, a field holds its initial content followed by every fragment
   * routed to it, in section order, joined by `<br><br>` with empty parts dropped:
   * nothing is overwritten. A field is present exactly when it was present before
   * or some fragment was routed to it.
   */
  lemma {:induction false} MapSectionsSpec(order: seq<string>, sectionToField: map<string, string>, html: map<string, string>,
                                           fields: map<string, string>, f: string)
    ensures var r := MapSections(order, sectionToField, html, fields);
      && (f in r <==> f in fields || |PartsFor(order, sectionToField, html, f)| > 0)
      && A.Get(r, f) == JoinNonEmpty([A.Get(fields, f)] + PartsFor(order, sectionToField, html, f), SectionSep)
    decreases |order|
  {
    if |order| == 0 {
      JoinNonEmptySingleton(A.Get(fields, f));
    } else {
      var key := order[0];
      var next := MapStep(sectionToField, html, fields, key);
      var rest := PartsFor(order[1..], sectionToField, html, f);
      MapSectionsSpec(order[1..], sectionToField, html, next, f);
      MapStepSpec(sectionToField, html, fields, key, f);
      if f != "" && A.Get(sectionToField, key) == f && A.Get(html, key) != "" {
        assert PartsFor(order, sectionToField, html, f) == [A.Get(html, key)] + rest;
        FlattenStep(A.Get(fields, f), A.Get(html, key), rest);
      } else {
        assert PartsFor(order, sectionToField, html, f) == rest;
      }
    }
  }

  /** What one iteration does to field `f`. */
  lemma MapStepSpec(sectionToField: map<string, string>, html: map<string, string>,
                    fields: map<string, string>, key: string, f: string)
    ensures var next := MapStep(sectionToField, html, fields, key);
      var hit := f != "" && A.Get(sectionToField, key) == f && A.Get(html, key) != "";
      && (f in next <==> f in fields || hit)
      && (hit ==> A.Get(next, f) == JoinNonEmpty([A.Get(fields, f), A.Get(html, key)], SectionSep))
      && (!hit ==> A.Get(next, f) == A.Get(fields, f))
  {
  }

  lemma FlattenStep(a: string, h: string, rest: seq<string>)
    ensures JoinNonEmpty([JoinNonEmpty([a, h], SectionSep)] + rest, SectionSep)
         == JoinNonEmpty([a] + ([h] + rest), SectionSep)
  {
    JoinNonEmptyFlatten([a, h], rest, SectionSep);
    assert [a, h] + rest == [a] + ([h] + rest);
  }

  lemma JoinNonEmptySingleton(x: string)
    ensures JoinNonEmpty([x], SectionSep) == x
  {
    assert [x][..0] == [];
  }

  /** The first pass over `sectionOrder`: every text fragment, mapped or not. */
  function FirstPassParts(order: seq<string>, html: map<string, string>): (r: seq<string>)
    ensures forall i :: 0 <= i < |r| ==> r[i] != ""
    decreases |order|
  {
    if |order| == 0 then []
    else
      var key := order[0];
      var here := if !HandledElsewhere(key) && A.Get(html, key) != "" then [A.Get(html, key)] else [];
      here + FirstPassParts(order[1..], html)
  }

  /** The fragments of the unmapped text sections, in section order. */
  function UnmappedParts(order: seq<string>, sectionToField: map<string, string>, html: map<string, string>): (r: seq<string>)
    ensures forall i :: 0 <= i < |r| ==> r[i] != ""
    decreases |order|
  {
    if |order| == 0 then []
    else
      var key := order[0];
      var here := if !HandledElsewhere(key) && A.Get(sectionToField, key) == "" && A.Get(html, key) != ""
                  then [A.Get(html, key)] else [];
      here + UnmappedParts(order[1..], sectionToField, html)
  }

  /**
   * The first pass agrees with the final back text whenever no text section is
   * mapped; the composed card only ever uses the final one.
   */
  lemma {:induction false} FirstPassAgreesWhenUnmapped(order: seq<string>, sectionToField: map<string, string>, html: map<string, string>)
    requires forall i :: 0 <= i < |order| && !HandledElsewhere(order[i]) ==> A.Get(sectionToField, order[i]) == ""
    ensures FirstPassParts(order, html) == UnmappedParts(order, sectionToField, html)
    decreases |order|
  {
    if |order| > 0 {
      FirstPassAgreesWhenUnmapped(order[1..], sectionToField, html);
    }
  }

  /**
   * The back text's parts are exactly the non-empty fragments of the unmapped
   * text sections: each such fragment is one of them, and each of them is such a fragment.
   */
  lemma {:induction false} UnmappedPartsSpec(order: seq<string>, sectionToField: map<string, string>, html: map<string, string>)
    ensures forall i :: 0 <= i < |order| && A.Get(sectionToField, order[i]) == "" && !HandledElsewhere(order[i])
                        && A.Get(html, order[i]) != ""
                        ==> A.Get(html, order[i]) in UnmappedParts(order, sectionToField, html)
    ensures forall p :: p in UnmappedParts(order, sectionToField, html) ==>
              exists j :: 0 <= j < |order| && A.Get(sectionToField, order[j]) == "" && !HandledElsewhere(order[j])
                          && p == A.Get(html, order[j])
    decreases |order|
  {
    if |order| > 0 {
      UnmappedPartsSpec(order[1..], sectionToField, html);
      var rest := UnmappedParts(order[1..], sectionToField, html);
      forall i | 0 <= i < |order| && A.Get(sectionToField, order[i]) == "" && !HandledElsewhere(order[i])
                 && A.Get(html, order[i]) != ""
        ensures A.Get(html, order[i]) in UnmappedParts(order, sectionToField, html)
      {
        if i > 0 {
          assert order[i] == order[1..][i - 1];
        }
      }
      forall p | p in UnmappedParts(order, sectionToField, html)
        ensures exists j :: 0 <= j < |order| && A.Get(sectionToField, order[j]) == "" && !HandledElsewhere(order[j])
                            && p == A.Get(html, order[j])
      {
        if p !in rest {
          assert p == A.Get(html, order[0]);
        } else {
          var j :| 0 <= j < |order[1..]| && A.Get(sectionToField, order[1..][j]) == "" && !HandledElsewhere(order[1..][j])
                   && p == A.Get(html, order[1..][j]);
          assert order[1..][j] == order[j + 1];
        }
      }
    }
  }

  /**
   * The placement of an attachment: a non-empty `sectionToField` entry for its
   * section forces field mode with that field; otherwise the configured target applies.
   */
  function AttachmentTarget(sectionToField: map<string, string>, key: string, configured: AudioTarget): (t: AudioTarget)
    ensures A.Get(sectionToField, key) != "" ==> t == AudioTarget(Field, Some(A.Get(sectionToField, key)))
    ensures A.Get(sectionToField, key) == "" ==> t == configured
  {
    if A.Get(sectionToField, key) != "" then AudioTarget(Field, Some(A.Get(sectionToField, key)))
    else configured
  }

  /** `appendAudioNTo`: field mode is sent as `'none'`, the other modes as themselves. */
  function PlacementOf(t: AudioTarget): A.Placement {
    match t.mode
    case Front => A.PFront
    case Back => A.PBack
    case Field => A.PNone
    case NoAppend => A.PNone
  }

  /** `appendAudioNToFieldName`: the field name in field mode, absent otherwise. */
  function FieldNameOf(t: AudioTarget): Option<string> {
    if t.mode == Field then t.fieldName else None
  }

  /** The images' file list as `sendToAnki` receives it. */
  function ImageSlots(images: seq<A.File>): (r: seq<Option<A.File>>)
    ensures |r| == |images|
    ensures forall i :: 0 <= i < |images| ==> r[i] == Some(images[i])
  {
    seq(|images|, i requires 0 <= i < |images| => Some(images[i]))
  }

  /** The composed fields: the trimmed target word in the front field, then the mapped sections. */
  function ComposedFields(form: FormState, settings: AnkiSettings): (r: map<string, string>)
    ensures settings.frontFieldName in r
  {
    var init := map[settings.frontFieldName := Trim(form.targetWord)];
    MapSectionsSpec(settings.sectionOrder, settings.sectionToField, KeyToHtml(form), init, settings.frontFieldName);
    MapSections(settings.sectionOrder, settings.sectionToField, KeyToHtml(form), init)
  }

  /** The record the submit handler passes to `sendToAnki`. */
  function Compose(form: FormState, settings: AnkiSettings): (card: A.CardData)
    ensures card.front == Trim(form.targetWord)
    ensures card.fields.Some? && settings.frontFieldName in card.fields.value
    ensures card.deckName == settings.deckName && card.modelName == settings.modelName
    ensures card.frontFieldName == settings.frontFieldName && card.backFieldName == settings.backFieldName
    ensures card.audio1 == form.audioSentence && card.audio2 == form.audioWord
    ensures card.images == Some(ImageSlots(form.images))
    ensures card.allowDuplicate == Some(settings.allowDuplicate)
    ensures card.tags.None?
  {
    var stf := settings.sectionToField;
    var fields := ComposedFields(form, settings);
    var a1 := AttachmentTarget(stf, "sentenceAudio", settings.audio1Target);
    var a2 := AttachmentTarget(stf, "wordAudio", settings.audio2Target);
    var imagesField := A.Get(stf, "images");
    A.CardData(
      settings.deckName, settings.modelName, settings.frontFieldName, settings.backFieldName,
      Trim(form.targetWord), Join(UnmappedParts(settings.sectionOrder, stf, KeyToHtml(form)), SectionSep),
      if |fields| > 0 then Some(fields) else None,
      form.audioSentence, form.audioWord,
      Some(PlacementOf(a1)), Some(PlacementOf(a2)), FieldNameOf(a1), FieldNameOf(a2),
      Some(ImageSlots(form.images)),
      Some(if imagesField != "" then A.PNone else A.PBack),
      if imagesField != "" then Some(imagesField) else None,
      Some(settings.allowDuplicate), None)
  }

  /**
   * Every field of the composed map holds, in section order, the fragments
   * routed to it, after the trimmed target word in the front field.
   */
  lemma ComposedFieldContents(form: FormState, settings: AnkiSettings, f: string)
    ensures var fields := Compose(form, settings).fields.value;
      var parts := PartsFor(settings.sectionOrder, settings.sectionToField, KeyToHtml(form), f);
      && (f in fields <==> f == settings.frontFieldName || |parts| > 0)
      && A.Get(fields, f) == JoinNonEmpty([if f == settings.frontFieldName then Trim(form.targetWord) else ""] + parts, SectionSep)
  {
    MapSectionsSpec(settings.sectionOrder, settings.sectionToField, KeyToHtml(form),
                    map[settings.frontFieldName := Trim(form.targetWord)], f);
  }

  /**
   * The back text joins exactly the unmapped text fragments; when no text
   * section has content, it is empty.
   */
  lemma ComposedBack(form: FormState, settings: AnkiSettings)
    ensures var parts := UnmappedParts(settings.sectionOrder, settings.sectionToField, KeyToHtml(form));
      && Compose(form, settings).back == Join(parts, SectionSep)
      && (forall p :: p in parts <==>
            exists j :: 0 <= j < |settings.sectionOrder| && A.Get(settings.sectionToField, settings.sectionOrder[j]) == ""
                        && !HandledElsewhere(settings.sectionOrder[j]) && p == A.Get(KeyToHtml(form), settings.sectionOrder[j]) != "")
  {
    UnmappedPartsSpec(settings.sectionOrder, settings.sectionToField, KeyToHtml(form));
  }

  /** The table read at any key: the section's own entry, or nothing for a key outside it. */
  lemma HtmlAt(form: FormState, key: string)
    ensures key !in AllSectionKeys ==> A.Get(KeyToHtml(form), key) == ""
    ensures key in AllSectionKeys ==> A.Get(KeyToHtml(form), key) == SectionHtml(form, SectionOf(key).value)
  {
  }

  /** A form whose text sections are blank composes to an empty back text. */
  lemma BlankFormHasEmptyBack(form: FormState, settings: AnkiSettings)
    requires AllWhitespace(form.definition) && AllWhitespace(form.sentence) && AllWhitespace(form.sentenceTranslation)
    requires AllWhitespace(form.exampleSentences) && AllWhitespace(form.notes)
    ensures Compose(form, settings).back == ""
  {
    var html := KeyToHtml(form);
    forall key | !HandledElsewhere(key)
      ensures A.Get(html, key) == ""
    {
      HtmlAt(form, key);
      if key in AllSectionKeys {
        var s := SectionOf(key).value;
        assert s.Key() == key;
        BlankTextSectionHtml(form, s);
      }
    }
    NothingUnmapped(settings.sectionOrder, settings.sectionToField, html);
  }

  lemma BlankTextSectionHtml(form: FormState, s: Section)
    requires AllWhitespace(form.definition) && AllWhitespace(form.sentence) && AllWhitespace(form.sentenceTranslation)
    requires AllWhitespace(form.exampleSentences) && AllWhitespace(form.notes)
    requires s != TargetWord
    ensures SectionHtml(form, s) == ""
  {
    SectionHtmlNonEmpty(form, s);
  }

  lemma {:induction false} NothingUnmapped(order: seq<string>, sectionToField: map<string, string>, html: map<string, string>)
    requires forall key :: !HandledElsewhere(key) ==> A.Get(html, key) == ""
    ensures UnmappedParts(order, sectionToField, html) == []
    decreases |order|
  {
    if |order| > 0 {
      NothingUnmapped(order[1..], sectionToField, html);
    }
  }

  /** The two annotation flags influence nothing that is sent. */
  lemma AnnotationsIgnored(form: FormState, settings: AnkiSettings, meme: bool, syntax: bool)
    ensures Compose(form.(memeMode := meme, modifySyntax := syntax), settings) == Compose(form, settings)
  {
    assert KeyToHtml(form.(memeMode := meme, modifySyntax := syntax)) == KeyToHtml(form);
  }

  /**
   * With the target word mapped to the front field and nothing else mapped there,
   * the front field holds the bare word and then its labelled fragment.
   */
  lemma TargetWordMappedToFront(form: FormState, settings: AnkiSettings)
    requires IsCanonicalOrder(settings.sectionOrder)
    requires settings.sectionToField == map["targetWord" := settings.frontFieldName]
    requires settings.frontFieldName != "" && !AllWhitespace(form.targetWord)
    ensures Compose(form, settings).fields.value[settings.frontFieldName]
         == Trim(form.targetWord) + SectionSep + "<strong>Word</strong><br>" + Trim(form.targetWord)
  {
    var ff := settings.frontFieldName;
    var front := Trim(form.targetWord);
    var frag := "<strong>Word</strong><br>" + front;
    NonBlankTrim(form.targetWord);
    OnlyTargetWordToFront(form, settings);
    ComposedFieldContents(form, settings, ff);
    TwoParts(front, frag);
  }

  lemma OnlyTargetWordToFront(form: FormState, settings: AnkiSettings)
    requires IsCanonicalOrder(settings.sectionOrder)
    requires settings.sectionToField == map["targetWord" := settings.frontFieldName]
    requires settings.frontFieldName != "" && !AllWhitespace(form.targetWord)
    ensures PartsFor(settings.sectionOrder, settings.sectionToField, KeyToHtml(form), settings.frontFieldName)
         == ["<strong>Word</strong><br>" + Trim(form.targetWord)]
  {
    WordEntry(form);
    assert "targetWord" in settings.sectionOrder by {
      assert "targetWord" == AllSectionKeys[0];
    }
    OnlyOneKeyTo(settings.sectionToField, "targetWord", settings.frontFieldName);
    SinglePart(settings.sectionOrder, settings.sectionToField, KeyToHtml(form), settings.frontFieldName, "targetWord");
  }

  lemma WordEntry(form: FormState)
    requires !AllWhitespace(form.targetWord)
    ensures A.Get(KeyToHtml(form), "targetWord") == "<strong>Word</strong><br>" + Trim(form.targetWord)
  {
    HtmlOfSection(form, TargetWord);
    WordLabelled(form);
  }

  lemma WordLabelled(form: FormState)
    requires !AllWhitespace(form.targetWord)
    ensures SectionHtml(form, TargetWord) == "<strong>Word</strong><br>" + Trim(form.targetWord)
  {
    NonBlankTrim(form.targetWord);
    assert SectionHtml(form, TargetWord) == "<strong>" + "Word" + "</strong><br>" + Trim(form.targetWord);
    WordTitle();
  }

  lemma WordTitle()
    ensures "<strong>" + "Word" + "</strong><br>" == "<strong>Word</strong><br>"
  {
  }

  lemma HtmlOfSection(form: FormState, s: Section)
    ensures A.Get(KeyToHtml(form), s.Key()) == SectionHtml(form, s)
  {
    SectionKeyRoundTrip(s);
    HtmlAt(form, s.Key());
  }


  lemma OnlyOneKeyTo(stf: map<string, string>, key: string, f: string)
    requires stf == map[key := f] && f != ""
    ensures A.Get(stf, key) == f
    ensures forall k :: k != key ==> A.Get(stf, k) != f
  {
  }

  lemma TwoParts(a: string, b: string)
    requires a != "" && b != ""
    ensures JoinNonEmpty([a] + [b], SectionSep) == a + SectionSep + b
  {
    assert [a] + [b] == [a, b];
    assert [a, b][..1] == [a];
    assert [a][..0] == [];
    assert NonEmpty([a]) == [a];
    assert NonEmpty([a, b]) == [a, b];
    assert Join([a, b], SectionSep) == Join([a], SectionSep) + SectionSep + b;
  }

  /** When exactly one section, occurring once, is routed to `f`, the field receives exactly its fragment. */
  lemma {:induction false} SinglePart(order: seq<string>, stf: map<string, string>, html: map<string, string>, f: string, key: string)
    requires Seqs.NoDup(order) && key in order
    requires f != "" && A.Get(stf, key) == f && A.Get(html, key) != ""
    requires forall k :: k != key ==> A.Get(stf, k) != f
    ensures PartsFor(order, stf, html, f) == [A.Get(html, key)]
    decreases |order|
  {
    if order[0] == key {
      NoPart(order[1..], stf, html, f, key);
      assert [A.Get(html, key)] + [] == [A.Get(html, key)];
    } else {
      assert Seqs.NoDup(order[1..]);
      SinglePart(order[1..], stf, html, f, key);
    }
  }

  lemma {:induction false} NoPart(order: seq<string>, stf: map<string, string>, html: map<string, string>, f: string, key: string)
    requires key !in order
    requires forall k :: k != key ==> A.Get(stf, k) != f
    ensures PartsFor(order, stf, html, f) == []
    decreases |order|
  {
    if |order| > 0 {
      NoPart(order[1..], stf, html, f, key);
    }
  }
}

=== FILE: pipeline.dfy ===
/**
 * The submit handler and `sendToAnki` taken together: where the attachments
 * land, which of the form's sections reach the note that is added, and the
 * `back` text that never does.
 */
module Pipeline {
  import opened Wrappers
  import opened Text
  import opened Settings
  import opened Composer
  import A = AnkiService
  import Seqs

  /**
   * The field an attachment ends up in, read off the settings alone: its
   * `sectionToField` entry when non-empty, otherwise the field its configured
   * mode names (`""` means it is uploaded but referenced nowhere).
   */
  function ExpectedAttachmentField(sectionToField: map<string, string>, key: string, configured: AudioTarget,
                                   frontField: string, backField: string): string {
    if A.Get(sectionToField, key) != "" then A.Get(sectionToField, key)
    else match configured.mode
      case Front => frontField
      case Back => backField
      case Field => configured.fieldName.GetOr("")
      case NoAppend => ""
  }

  /** What `sendToAnki` resolves a target to, when the record carries it the way the submit handler sends it. */
  lemma ResolveTarget(t: AudioTarget, frontField: string, backField: string)
    ensures A.ResolveField(FieldNameOf(t), PlacementOf(t), frontField, backField)
         == ExpectedAttachmentField(map[], "", t, frontField, backField)
  {
  }

  /**
   * The explicit section mapping beats the configured mode for both audio
   * clips, and the images go to their mapped field or else to the back field.
   */
  lemma AttachmentPlacement(form: FormState, settings: AnkiSettings)
    ensures var card := Compose(form, settings);
      var stf := settings.sectionToField;
      && A.Audio1Field(card) == ExpectedAttachmentField(stf, "sentenceAudio", settings.audio1Target,
                                                        settings.frontFieldName, settings.backFieldName)
      && A.Audio2Field(card) == ExpectedAttachmentField(stf, "wordAudio", settings.audio2Target,
                                                        settings.frontFieldName, settings.backFieldName)
      && A.ImagesField(card) == (if A.Get(stf, "images") != "" then A.Get(stf, "images") else settings.backFieldName)
  {
    var card := Compose(form, settings);
    var stf := settings.sectionToField;
    var t1 := AttachmentTarget(stf, "sentenceAudio", settings.audio1Target);
    var t2 := AttachmentTarget(stf, "wordAudio", settings.audio2Target);
    ComposedTargets(form, settings);
    CarriedTargets(card, t1, t2);
    CarriedImagesTarget(card, A.Get(stf, "images"));
  }

  /** The four placement entries of the composed record. */
  lemma ComposedTargets(form: FormState, settings: AnkiSettings)
    ensures var card := Compose(form, settings);
      var stf := settings.sectionToField;
      var t1 := AttachmentTarget(stf, "sentenceAudio", settings.audio1Target);
      var t2 := AttachmentTarget(stf, "wordAudio", settings.audio2Target);
      && card.appendAudio1To == Some(PlacementOf(t1)) && card.appendAudio1ToFieldName == FieldNameOf(t1)
      && card.appendAudio2To == Some(PlacementOf(t2)) && card.appendAudio2ToFieldName == FieldNameOf(t2)
      && card.appendImagesTo == Some(if A.Get(stf, "images") != "" then A.PNone else A.PBack)
      && card.appendImagesToFieldName == (if A.Get(stf, "images") != "" then Some(A.Get(stf, "images")) else None)
  {
  }

  lemma CarriedImagesTarget(card: A.CardData, mapped: string)
    requires card.appendImagesTo == Some(if mapped != "" then A.PNone else A.PBack)
    requires card.appendImagesToFieldName == (if mapped != "" then Some(mapped) else None)
    ensures A.ImagesField(card) == if mapped != "" then mapped else card.backFieldName
  {
  }

  lemma CarriedTargets(card: A.CardData, t1: AudioTarget, t2: AudioTarget)
    requires card.appendAudio1To == Some(PlacementOf(t1)) && card.appendAudio1ToFieldName == FieldNameOf(t1)
    requires card.appendAudio2To == Some(PlacementOf(t2)) && card.appendAudio2ToFieldName == FieldNameOf(t2)
    ensures A.Audio1Field(card) == ExpectedAttachmentField(map[], "", t1, card.frontFieldName, card.backFieldName)
    ensures A.Audio2Field(card) == ExpectedAttachmentField(map[], "", t2, card.frontFieldName, card.backFieldName)
  {
    ResolveTarget(t1, card.frontFieldName, card.backFieldName);
    ResolveTarget(t2, card.frontFieldName, card.backFieldName);
  }

  /** Every file the form attaches can be read. */
  predicate AttachmentsReadable(form: FormState) {
    && (form.audioSentence.Some? ==> A.Readable(form.audioSentence.value))
    && (form.audioWord.Some? ==> A.Readable(form.audioWord.value))
    && (forall i :: 0 <= i < |form.images| ==> A.Readable(form.images[i]))
  }

  lemma {:induction false} PresentSlots(images: seq<A.File>)
    ensures A.PresentFiles(ImageSlots(images)) == images
    decreases |images|
  {
    if |images| > 0 {
      var init := images[..|images| - 1];
      PresentSlots(init);
      assert ImageSlots(images)[..|images| - 1] == ImageSlots(init);
      assert images == init + [images[|images| - 1]];
    }
  }

  /**
   * A record carrying the form's attachments is prepared for sending exactly
   * when every attached file can be read.
   */
  lemma ReadableIffPrepared(form: FormState, card: A.CardData)
    requires card.audio1 == form.audioSentence && card.audio2 == form.audioWord
    requires card.images == Some(ImageSlots(form.images))
    ensures A.Prepare(card).Success? <==> AttachmentsReadable(form)
  {
    A.PrepareSucceedsIffReadable(card);
    AttachmentsOfCard(form, card);
    ReadableConcat(form.audioSentence, form.audioWord, form.images);
  }

  lemma AttachmentsOfCard(form: FormState, card: A.CardData)
    requires card.audio1 == form.audioSentence && card.audio2 == form.audioWord
    requires card.images == Some(ImageSlots(form.images))
    ensures A.Attachments(card) == A.OptionalSeq(form.audioSentence) + A.OptionalSeq(form.audioWord) + form.images
  {
    PresentSlots(form.images);
  }

  lemma ReadableConcat(a: Option<A.File>, b: Option<A.File>, images: seq<A.File>)
    ensures var att := A.OptionalSeq(a) + A.OptionalSeq(b) + images;
      (forall i :: 0 <= i < |att| ==> A.Readable(att[i]))
      <==> && (a.Some? ==> A.Readable(a.value))
           && (b.Some? ==> A.Readable(b.value))
           && (forall i :: 0 <= i < |images| ==> A.Readable(images[i]))
  {
    var oa := A.OptionalSeq(a);
    var ob := A.OptionalSeq(b);
    AllReadableAppend(oa + ob, images);
    AllReadableAppend(oa, ob);
    AllReadableOptional(a);
    AllReadableOptional(b);
  }

  /** Every attachment in `xs` has been read. */
  predicate AllReadable(xs: seq<A.File>) {
    forall i :: 0 <= i < |xs| ==> A.Readable(xs[i])
  }

  lemma AllReadableAppend(xs: seq<A.File>, ys: seq<A.File>)
    ensures AllReadable(xs + ys) <==> AllReadable(xs) && AllReadable(ys)
  {
    if AllReadable(xs) && AllReadable(ys) {
      forall i | 0 <= i < |xs + ys|
        ensures A.Readable((xs + ys)[i])
      {
        if i >= |xs| {
          assert (xs + ys)[i] == ys[i - |xs|];
        }
      }
    }
    if AllReadable(xs + ys) {
      forall i | 0 <= i < |xs|
        ensures A.Readable(xs[i])
      {
        assert (xs + ys)[i] == xs[i];
      }
      forall i | 0 <= i < |ys|
        ensures A.Readable(ys[i])
      {
        assert (xs + ys)[|xs| + i] == ys[i];
      }
    }
  }

  lemma AllReadableOptional(o: Option<A.File>)
    ensures AllReadable(A.OptionalSeq(o)) <==> (o.Some? ==> A.Readable(o.value))
  {
    if o.Some? {
      assert A.OptionalSeq(o)[0] == o.value;
    }
  }

  /** Every field of `m1` is still in `m2`, with its old content as a prefix. */
  predicate Extends(m1: map<string, string>, m2: map<string, string>) {
    forall f :: f in m1 ==> f in m2 && m1[f] <= m2[f]
  }

  /** Merging the media markers only ever appends to the fields it is given. */
  lemma MergeExtends(card: A.CardData, a1: Option<A.Encoded>, a2: Option<A.Encoded>, imgs: seq<A.Encoded>)
    ensures Extends(A.BaseFields(card), A.MergeMarkers(card, a1, a2, imgs))
  {
    forall f | f in A.BaseFields(card)
      ensures f in A.MergeMarkers(card, a1, a2, imgs) && A.BaseFields(card)[f] <= A.MergeMarkers(card, a1, a2, imgs)[f]
    {
      A.NoteFieldsLayout(card, a1, a2, imgs, f);
      A.MergeNeverOverwrites(card, a1, a2, imgs, f);
    }
  }

  /** The note that is added extends the fields `sendToAnki` was given. */
  lemma PreparedNoteExtends(card: A.CardData)
    requires A.Prepare(card).Success?
    ensures Extends(A.BaseFields(card), A.Prepare(card).value.note.fields)
  {
    var enc := A.EncodeAll(card.audio1, card.audio2, A.WithDefaults(card).images).value;
    MergeExtends(card, enc.audio1, enc.audio2, enc.images);
  }

  lemma InfixExtends(p: string, m1: map<string, string>, m2: map<string, string>, f: string)
    requires Extends(m1, m2) && f in m1 && IsInfix(p, m1[f])
    ensures f in m2 && IsInfix(p, m2[f])
  {
    InfixOfPrefix(p, m1[f], m2[f]);
  }

  /** The table has an entry for every key of a section whose text is not blank. */
  lemma HasFragment(form: FormState, key: string)
    requires SectionOf(key).Some? && !AllWhitespace(SectionText(form, SectionOf(key).value))
    ensures A.Get(KeyToHtml(form), key) != ""
  {
    var s := SectionOf(key).value;
    SectionHtmlNonEmpty(form, s);
    HtmlOfSection(form, s);
  }

  /**
   * A section mapped to a field, with content, reaches that field of the added
   * note; the trimmed target word always reaches the front field.
   */
  lemma MappedSectionReachesNote(form: FormState, settings: AnkiSettings, i: nat)
    requires i < |settings.sectionOrder|
    requires A.Get(settings.sectionToField, settings.sectionOrder[i]) != ""
    requires SectionOf(settings.sectionOrder[i]).Some?
    requires !AllWhitespace(SectionText(form, SectionOf(settings.sectionOrder[i]).value))
    requires AttachmentsReadable(form)
    ensures A.Prepare(Compose(form, settings)).Success?
    ensures var f := A.Get(settings.sectionToField, settings.sectionOrder[i]);
      var fields := A.Prepare(Compose(form, settings)).value.note.fields;
      f in fields && IsInfix(A.Get(KeyToHtml(form), settings.sectionOrder[i]), fields[f])
  {
    ReadableIffPrepared(form, Compose(form, settings));
    HasFragment(form, settings.sectionOrder[i]);
    var order, stf, html := settings.sectionOrder, settings.sectionToField, KeyToHtml(form);
    var f := A.Get(stf, order[i]);
    var frag := A.Get(html, order[i]);
    var card := Compose(form, settings);
    var init := if f == settings.frontFieldName then Trim(form.targetWord) else "";
    PartsForHas(order, stf, html, i);
    ComposedFieldContents(form, settings, f);
    JoinNonEmptyHasPart([init] + PartsFor(order, stf, html, f), SectionSep, frag);
    PreparedNoteExtends(card);
    InfixExtends(frag, card.fields.value, A.Prepare(card).value.note.fields, f);
  }

  /** The trimmed target word always reaches the front field of the added note. */
  lemma FrontReachesNote(form: FormState, settings: AnkiSettings)
    requires AttachmentsReadable(form)
    ensures A.Prepare(Compose(form, settings)).Success?
    ensures var fields := A.Prepare(Compose(form, settings)).value.note.fields;
      settings.frontFieldName in fields && IsInfix(Trim(form.targetWord), fields[settings.frontFieldName])
  {
    ReadableIffPrepared(form, Compose(form, settings));
    var ff := settings.frontFieldName;
    var front := Trim(form.targetWord);
    var card := Compose(form, settings);
    ComposedFieldContents(form, settings, ff);
    if front == "" {
      assert OccursAt(front, card.fields.value[ff], 0);
    } else {
      JoinNonEmptyHasPart([front] + PartsFor(settings.sectionOrder, settings.sectionToField, KeyToHtml(form), ff), SectionSep, front);
    }
    PreparedNoteExtends(card);
    InfixExtends(front, card.fields.value, A.Prepare(card).value.note.fields, ff);
  }

  /** Once `fields` is passed, the `back` text has no effect on anything `sendToAnki` does. */
  lemma BackIgnored(card: A.CardData, back: string, replies: seq<A.Reply>)
    requires card.fields.Some?
    ensures A.SendToAnki(card.(back := back), replies) == A.SendToAnki(card, replies)
  {
    var card' := card.(back := back);
    assert A.WithDefaults(card') == A.WithDefaults(card);
    assert A.BaseFields(card') == A.BaseFields(card);
    assert A.Audio1Field(card') == A.Audio1Field(card);
    assert A.Audio2Field(card') == A.Audio2Field(card);
    assert A.ImagesField(card') == A.ImagesField(card);
    assert forall a1, a2, imgs :: A.MergeMarkers(card', a1, a2, imgs) == A.MergeMarkers(card, a1, a2, imgs);
    assert A.Prepare(card') == A.Prepare(card);
  }

  /** The composed record always passes `fields`, so its back text is never sent. */
  lemma ComposedBackNeverSent(form: FormState, settings: AnkiSettings, back: string, replies: seq<A.Reply>)
    ensures A.SendToAnki(Compose(form, settings).(back := back), replies) == A.SendToAnki(Compose(form, settings), replies)
  {
    BackIgnored(Compose(form, settings), back, replies);
  }

  /**
   * No section is mapped: `sectionToField` is empty or holds only the `''` that
   * "Append to Back" stores, which the submit handler reads as unmapped.
   */
  predicate NothingMapped(sectionToField: map<string, string>) {
    forall k :: k in sectionToField ==> sectionToField[k] == ""
  }

  /**
   * With no section mapped and nothing attached, the note holds the
   * trimmed target word in the front field and nothing else, whatever the other
   * sections contain.
   */
  lemma UnmappedSectionsDropped(form: FormState, settings: AnkiSettings)
    requires NothingMapped(settings.sectionToField)
    requires form.audioSentence.None? && form.audioWord.None? && form.images == []
    ensures A.Prepare(Compose(form, settings)).Success?
    ensures A.Prepare(Compose(form, settings)).value.note.fields == map[settings.frontFieldName := Trim(form.targetWord)]
  {
    var card := Compose(form, settings);
    OnlyFrontComposed(form, settings);
    NothingAttached(card);
  }

  lemma OnlyFrontComposed(form: FormState, settings: AnkiSettings)
    requires NothingMapped(settings.sectionToField)
    ensures Compose(form, settings).fields.value == map[settings.frontFieldName := Trim(form.targetWord)]
  {
    var ff := settings.frontFieldName;
    var fields := Compose(form, settings).fields.value;
    forall f
      ensures f in fields <==> f == ff
      ensures f in fields ==> fields[f] == Trim(form.targetWord)
    {
      OnlyFrontField(form, settings, f);
    }
  }

  lemma OnlyFrontField(form: FormState, settings: AnkiSettings, f: string)
    requires NothingMapped(settings.sectionToField)
    ensures var fields := Compose(form, settings).fields.value;
      && (f in fields <==> f == settings.frontFieldName)
      && (f in fields ==> fields[f] == Trim(form.targetWord))
  {
    var word := Trim(form.targetWord);
    ComposedFieldContents(form, settings, f);
    NothingRouted(settings.sectionOrder, settings.sectionToField, KeyToHtml(form), f);
    if f == settings.frontFieldName {
      assert [word] + [] == [word];
      JoinNonEmptySingleton(word);
    }
  }

  /** With no audio and no image, the note carries the fields exactly as given. */
  lemma NothingAttached(card: A.CardData)
    requires card.audio1.None? && card.audio2.None? && card.images == Some([]) && card.fields.Some?
    ensures A.Prepare(card).Success? && A.Prepare(card).value.note.fields == card.fields.value
  {
    assert A.EncodeAll(None, None, []) == Success(A.Encodings(None, None, []));
    assert A.MergeMarkers(card, None, None, []) == card.fields.value;
  }

  lemma {:induction false} NothingRouted(order: seq<string>, stf: map<string, string>, html: map<string, string>, f: string)
    requires NothingMapped(stf)
    ensures PartsFor(order, stf, html, f) == []
    decreases |order|
  {
    if |order| > 0 {
      NothingRouted(order[1..], stf, html, f);
    }
  }

  /**
   * On a form whose only text besides the word is a definition,
   * with nothing mapped and nothing attached, the definition is composed into
   * the back text, yet the note that is added holds only the word.
   */
  lemma DefinitionLost(form: FormState, settings: AnkiSettings)
    requires NothingMapped(settings.sectionToField) && IsCanonicalOrder(settings.sectionOrder)
    requires form.audioSentence.None? && form.audioWord.None? && form.images == []
    requires !AllWhitespace(form.definition)
    requires AllWhitespace(form.sentence) && AllWhitespace(form.sentenceTranslation)
    requires AllWhitespace(form.exampleSentences) && AllWhitespace(form.notes)
    ensures Compose(form, settings).back == "<strong>Definition</strong><br>" + Trim(form.definition)
    ensures A.Prepare(Compose(form, settings)).Success?
    ensures A.Prepare(Compose(form, settings)).value.note.fields == map[settings.frontFieldName := Trim(form.targetWord)]
  {
    UnmappedSectionsDropped(form, settings);
    DefinitionBack(form, settings);
  }

  lemma DefinitionBack(form: FormState, settings: AnkiSettings)
    requires NothingMapped(settings.sectionToField) && IsCanonicalOrder(settings.sectionOrder)
    requires !AllWhitespace(form.definition)
    requires AllWhitespace(form.sentence) && AllWhitespace(form.sentenceTranslation)
    requires AllWhitespace(form.exampleSentences) && AllWhitespace(form.notes)
    ensures Compose(form, settings).back == "<strong>Definition</strong><br>" + Trim(form.definition)
  {
    DefinitionInCanonical(settings.sectionOrder);
    DefinitionSolePart(form, settings.sectionOrder, settings.sectionToField);
    BackOfParts(form, settings);
  }

  lemma DefinitionInCanonical(order: seq<string>)
    requires IsCanonicalOrder(order)
    ensures "definition" in order
  {
    assert "definition" == AllSectionKeys[1];
  }

  /** The back text is the join of the unmapped parts. */
  lemma BackOfParts(form: FormState, settings: AnkiSettings)
    ensures Compose(form, settings).back
         == Join(UnmappedParts(settings.sectionOrder, settings.sectionToField, KeyToHtml(form)), SectionSep)
  {
  }

  lemma DefinitionSolePart(form: FormState, order: seq<string>, stf: map<string, string>)
    requires Seqs.NoDup(order) && "definition" in order && NothingMapped(stf)
    requires !AllWhitespace(form.definition)
    requires AllWhitespace(form.sentence) && AllWhitespace(form.sentenceTranslation)
    requires AllWhitespace(form.exampleSentences) && AllWhitespace(form.notes)
    ensures UnmappedParts(order, stf, KeyToHtml(form)) == ["<strong>Definition</strong><br>" + Trim(form.definition)]
  {
    DefinitionOnlyHtml(form);
    SoleUnmapped(order, stf, KeyToHtml(form));
  }

  lemma {:induction false} SoleUnmapped(order: seq<string>, stf: map<string, string>, html: map<string, string>)
    requires Seqs.NoDup(order) && "definition" in order && NothingMapped(stf)
    requires A.Get(html, "definition") != ""
    requires forall key :: key != "definition" && !HandledElsewhere(key) ==> A.Get(html, key) == ""
    ensures UnmappedParts(order, stf, html) == [A.Get(html, "definition")]
    decreases |order|
  {
    if order[0] == "definition" {
      assert "definition" !in order[1..];
      OnlyDefinition(order[1..], stf, html);
      assert [A.Get(html, "definition")] + [] == [A.Get(html, "definition")];
    } else {
      assert Seqs.NoDup(order[1..]);
      SoleUnmapped(order[1..], stf, html);
    }
  }

  lemma DefinitionOnlyHtml(form: FormState)
    requires !AllWhitespace(form.definition)
    requires AllWhitespace(form.sentence) && AllWhitespace(form.sentenceTranslation)
    requires AllWhitespace(form.exampleSentences) && AllWhitespace(form.notes)
    ensures A.Get(KeyToHtml(form), "definition") == "<strong>Definition</strong><br>" + Trim(form.definition)
    ensures forall key :: key != "definition" && !HandledElsewhere(key) ==> A.Get(KeyToHtml(form), key) == ""
  {
    DefinitionHtml(form);
    BlankTrim(form.sentence);
    BlankTrim(form.sentenceTranslation);
    BlankTrim(form.exampleSentences);
    BlankTrim(form.notes);
    OthersBlank(form);
  }

  lemma DefinitionHtml(form: FormState)
    requires !AllWhitespace(form.definition)
    ensures A.Get(KeyToHtml(form), "definition") == "<strong>Definition</strong><br>" + Trim(form.definition)
  {
    HtmlOfSection(form, Definition);
    DefinitionLabelled(form);
  }

  lemma DefinitionLabelled(form: FormState)
    requires !AllWhitespace(form.definition)
    ensures SectionHtml(form, Definition) == "<strong>Definition</strong><br>" + Trim(form.definition)
  {
    NonBlankTrim(form.definition);
    assert SectionHtml(form, Definition) == "<strong>" + "Definition" + "</strong><br>" + Trim(form.definition);
    DefinitionTitle();
  }

  lemma DefinitionTitle()
    ensures "<strong>" + "Definition" + "</strong><br>" == "<strong>Definition</strong><br>"
  {
  }

  lemma OthersBlank(form: FormState)
    requires Trim(form.sentence) == "" && Trim(form.sentenceTranslation) == ""
    requires Trim(form.exampleSentences) == "" && Trim(form.notes) == ""
    ensures forall key :: key != "definition" && !HandledElsewhere(key) ==> A.Get(KeyToHtml(form), key) == ""
  {
    forall key | key != "definition" && !HandledElsewhere(key)
      ensures A.Get(KeyToHtml(form), key) == ""
    {
      OtherTextBlank(form, key);
    }
  }

  lemma OtherTextBlank(form: FormState, key: string)
    requires Trim(form.sentence) == "" && Trim(form.sentenceTranslation) == ""
    requires Trim(form.exampleSentences) == "" && Trim(form.notes) == ""
    requires key != "definition" && !HandledElsewhere(key)
    ensures A.Get(KeyToHtml(form), key) == ""
  {
    HtmlAt(form, key);
    if key in AllSectionKeys {
      var s := SectionOf(key).value;
      assert s.Key() == key;
      assert s != TargetWord && s != Definition;
      BlankSectionHtml(form, s);
    }
  }

  lemma BlankSectionHtml(form: FormState, s: Section)
    requires Trim(form.sentence) == "" && Trim(form.sentenceTranslation) == ""
    requires Trim(form.exampleSentences) == "" && Trim(form.notes) == ""
    requires s != TargetWord && s != Definition
    ensures SectionHtml(form, s) == ""
  {
  }

  lemma {:induction false} OnlyDefinition(order: seq<string>, stf: map<string, string>, html: map<string, string>)
    requires "definition" !in order && NothingMapped(stf)
    requires forall key :: key != "definition" && !HandledElsewhere(key) ==> A.Get(html, key) == ""
    ensures UnmappedParts(order, stf, html) == []
    decreases |order|
  {
    if |order| > 0 {
      OnlyDefinition(order[1..], stf, html);
    }
  }

  /**
   * The record with the back text delivered: as composed, with the back text appended to
   * the back field (after anything already routed there) when it is non-empty.
   */
  function ComposeCorrected(form: FormState, settings: AnkiSettings): (card: A.CardData)
    ensures card.fields.Some? && card == Compose(form, settings).(fields := card.fields)
    ensures Extends(Compose(form, settings).fields.value, card.fields.value)
  {
    var card := Compose(form, settings);
    card.(fields := Some(AppendBack(card.fields.value, settings.backFieldName, card.back)))
  }

  /** The back text appended to the back field, which keeps every field's earlier content. */
  function AppendBack(fields: map<string, string>, backField: string, back: string): (r: map<string, string>)
    ensures Extends(fields, r)
    ensures back != "" ==> backField in r && r[backField] == AppendPart(A.Get(fields, backField), back, SectionSep)
    ensures back == "" ==> r == fields
  {
    if back != "" then fields[backField := AppendPart(A.Get(fields, backField), back, SectionSep)] else fields
  }

  /**
   * Once the back text is delivered, every text section with content reaches the added note, the
   * mapped ones in their own field and the unmapped ones in the back field.
   */
  lemma CorrectedKeepsEverySection(form: FormState, settings: AnkiSettings, i: nat)
    requires i < |settings.sectionOrder|
    requires !HandledElsewhere(settings.sectionOrder[i]) && SectionOf(settings.sectionOrder[i]).Some?
    requires !AllWhitespace(SectionText(form, SectionOf(settings.sectionOrder[i]).value))
    requires AttachmentsReadable(form)
    ensures A.Prepare(ComposeCorrected(form, settings)).Success?
    ensures var mapped := A.Get(settings.sectionToField, settings.sectionOrder[i]);
      var f := if mapped != "" then mapped else settings.backFieldName;
      var fields := A.Prepare(ComposeCorrected(form, settings)).value.note.fields;
      f in fields && IsInfix(A.Get(KeyToHtml(form), settings.sectionOrder[i]), fields[f])
  {
    HasFragment(form, settings.sectionOrder[i]);
    var order, stf, html := settings.sectionOrder, settings.sectionToField, KeyToHtml(form);
    var frag := A.Get(html, order[i]);
    var card := ComposeCorrected(form, settings);
    var composed := Compose(form, settings).fields.value;
    var bf := settings.backFieldName;
    var mapped := A.Get(stf, order[i]);
    ReadableIffPrepared(form, card);
    if mapped != "" {
      var init := if mapped == settings.frontFieldName then Trim(form.targetWord) else "";
      PartsForHas(order, stf, html, i);
      ComposedFieldContents(form, settings, mapped);
      JoinNonEmptyHasPart([init] + PartsFor(order, stf, html, mapped), SectionSep, frag);
      InfixExtends(frag, composed, card.fields.value, mapped);
    } else {
      var parts := UnmappedParts(order, stf, html);
      UnmappedPartsSpec(order, stf, html);
      var j :| 0 <= j < |parts| && parts[j] == frag;
      JoinHasPart(parts, SectionSep, j);
      var back := Compose(form, settings).back;
      assert back == Join(parts, SectionSep);
      assert back != "" by {
        assert |frag| > 0;
      }
      var appended := AppendPart(A.Get(composed, bf), back, SectionSep);
      JoinNonEmptyHasPart([A.Get(composed, bf), back], SectionSep, back);
      InfixTransitive(frag, back, appended);
      assert card.fields.value == AppendBack(composed, bf, back);
    }
    PreparedNoteExtends(card);
    var f := if mapped != "" then mapped else bf;
    InfixExtends(frag, card.fields.value, A.Prepare(card).value.note.fields, f);
  }
}

=== FILE: seqs.dfy ===
/** Sequence helpers: `new Set(...)` de-duplication, filtering and the splice-move. */
module Seqs {

  predicate NoDup<T(==,!new)>(s: seq<T>) {
    forall i, j :: 0 <= i < j < |s| ==> s[i] != s[j]
  }

  /** The elements of `xs` that occur in `ref`, in the order of `xs`. */
  function Within<T(==,!new)>(xs: seq<T>, ref: seq<T>): (r: seq<T>)
    ensures forall x :: x in r <==> x in xs && x in ref
    decreases |xs|
  {
    if |xs| == 0 then []
    else
      var init := Within(xs[..|xs| - 1], ref);
      var x := xs[|xs| - 1];
      assert xs == xs[..|xs| - 1] + [x];
      if x in ref then init + [x] else init
  }

  /** The elements of `xs` that do not occur in `ref`, in the order of `xs`. */
  function Outside<T(==,!new)>(xs: seq<T>, ref: seq<T>): (r: seq<T>)
    ensures forall x :: x in r <==> x in xs && x !in ref
    decreases |xs|
  {
    if |xs| == 0 then []
    else
      var init := Outside(xs[..|xs| - 1], ref);
      var x := xs[|xs| - 1];
      assert xs == xs[..|xs| - 1] + [x];
      if x in ref then init else init + [x]
  }

  /** `Array.from(new Set(xs))`: the first occurrence of every element, in order. */
  function Dedup<T(==,!new)>(xs: seq<T>): (r: seq<T>)
    ensures NoDup(r)
    ensures forall x :: x in r <==> x in xs
    decreases |xs|
  {
    if |xs| == 0 then []
    else
      var d := Dedup(xs[..|xs| - 1]);
      var x := xs[|xs| - 1];
      assert xs == xs[..|xs| - 1] + [x];
      if x in d then d else d + [x]
  }

  /** The index of the first occurrence of `x` in `xs`. */
  function FirstIndex<T(==)>(xs: seq<T>, x: T): (k: nat)
    requires x in xs
    ensures k < |xs| && xs[k] == x && x !in xs[..k]
    decreases |xs|
  {
    if xs[0] == x then 0
    else
      var k := FirstIndex(xs[1..], x) + 1;
      assert xs[..k] == [xs[0]] + xs[1..][..k - 1];
      k
  }

  /** An index holding `x` with no `x` before it is the first index of `x`. */
  lemma FirstIndexUnique<T>(xs: seq<T>, x: T, k: nat)
    requires k < |xs| && xs[k] == x && x !in xs[..k]
    ensures FirstIndex(xs, x) == k
  {
    var f := FirstIndex(xs, x);
    assert forall m :: 0 <= m < k ==> xs[..k][m] == xs[m];
    assert forall m :: 0 <= m < f ==> xs[..f][m] == xs[m];
  }

  /** Appending to a sequence does not move the first occurrence of an element already in it. */
  lemma FirstIndexOfPrefix<T>(xs: seq<T>, y: T, x: T)
    requires x in xs
    ensures FirstIndex(xs + [y], x) == FirstIndex(xs, x)
  {
    var k := FirstIndex(xs, x);
    assert (xs + [y])[..k] == xs[..k];
    FirstIndexUnique(xs + [y], x, k);
  }

  /**
   * `Array.from(new Set(xs))` lists the distinct elements in the order of their
   * first occurrence in `xs`.
   */
  lemma {:induction false} DedupFirstOccurrenceOrder<T(!new)>(xs: seq<T>)
    ensures forall i, j :: 0 <= i < j < |Dedup(xs)| ==> FirstIndex(xs, Dedup(xs)[i]) < FirstIndex(xs, Dedup(xs)[j])
    decreases |xs|
  {
    if |xs| > 0 {
      var init := xs[..|xs| - 1];
      var x := xs[|xs| - 1];
      assert xs == init + [x];
      DedupFirstOccurrenceOrder(init);
      var d := Dedup(init);
      var r := Dedup(xs);
      forall k | 0 <= k < |d|
        ensures FirstIndex(xs, d[k]) == FirstIndex(init, d[k])
      {
        assert d[k] in d;
        FirstIndexOfPrefix(init, x, d[k]);
      }
      assert r == if x in d then d else d + [x];
      if x !in d {
        assert x !in init;
        assert xs[..|init|] == init;
        FirstIndexUnique(xs, x, |init|);
      }
      forall i, j | 0 <= i < j < |r|
        ensures FirstIndex(xs, r[i]) < FirstIndex(xs, r[j])
      {
        assert r[i] == d[i];
        if j < |d| {
          assert r[j] == d[j];
          assert FirstIndex(init, d[i]) < FirstIndex(init, d[j]);
          assert FirstIndex(xs, d[i]) == FirstIndex(init, d[i]);
          assert FirstIndex(xs, d[j]) == FirstIndex(init, d[j]);
        } else {
          assert r[j] == x;
          assert d[i] in init;
          assert FirstIndex(xs, d[i]) == FirstIndex(init, d[i]) < |init|;
          assert FirstIndex(xs, x) == |init|;
        }
      }
    }
  }

  lemma {:induction false} DedupOfNoDup<T(!new)>(xs: seq<T>)
    requires NoDup(xs)
    ensures Dedup(xs) == xs
    decreases |xs|
  {
    if |xs| > 0 {
      DedupOfNoDup(xs[..|xs| - 1]);
      assert xs == xs[..|xs| - 1] + [xs[|xs| - 1]];
    }
  }

  lemma {:induction false} WithinOfSubset<T(!new)>(xs: seq<T>, ref: seq<T>)
    requires forall x :: x in xs ==> x in ref
    ensures Within(xs, ref) == xs
    decreases |xs|
  {
    if |xs| > 0 {
      WithinOfSubset(xs[..|xs| - 1], ref);
      assert xs == xs[..|xs| - 1] + [xs[|xs| - 1]];
    }
  }

  lemma OutsideOfSubset<T(!new)>(xs: seq<T>, ref: seq<T>)
    requires forall x :: x in xs ==> x in ref
    ensures Outside(xs, ref) == []
  {
  }

  /**
   * De-duplicating `xs + ys` for a duplicate-free `ys` keeps the de-duplicated `xs`
   * as a prefix and then the elements of `ys` not already in `xs`, in the order of `ys`.
   */
  lemma {:induction false} DedupAppend<T(!new)>(xs: seq<T>, ys: seq<T>)
    requires NoDup(ys)
    ensures Dedup(xs + ys) == Dedup(xs) + Outside(ys, xs)
    decreases |ys|
  {
    if |ys| == 0 {
      assert xs + ys == xs;
    } else {
      var ys' := ys[..|ys| - 1];
      var y := ys[|ys| - 1];
      assert NoDup(ys');
      DedupAppend(xs, ys');
      assert (xs + ys)[..|xs + ys| - 1] == xs + ys';
      assert y !in ys';
    }
  }

  lemma {:induction false} NoDupCount<T(!new)>(s: seq<T>, x: T)
    requires NoDup(s)
    ensures multiset(s)[x] == if x in s then 1 else 0
    decreases |s|
  {
    if |s| > 0 {
      var s' := s[..|s| - 1];
      assert s == s' + [s[|s| - 1]];
      assert NoDup(s');
      NoDupCount(s', x);
      assert s[|s| - 1] !in s';
    }
  }

  /** Two duplicate-free sequences with the same members are permutations of each other. */
  lemma SameMembersPermutation<T(!new)>(a: seq<T>, b: seq<T>)
    requires NoDup(a) && NoDup(b)
    requires forall x :: x in a <==> x in b
    ensures multiset(a) == multiset(b)
    ensures |a| == |b|
  {
    forall x
      ensures multiset(a)[x] == multiset(b)[x]
    {
      NoDupCount(a, x);
      NoDupCount(b, x);
    }
    assert multiset(a) == multiset(b);
    assert |multiset(a)| == |a|;
  }

  /**
   * `const [m] = s.splice(from, 1); s.splice(to, 0, m)`: the element at `from`
   * moves to index `to`; `splice` clamps an insertion index past the end.
   */
  function Move<T>(s: seq<T>, from: nat, to: nat): (r: seq<T>)
    requires from < |s|
    ensures |r| == |s|
  {
    var rest := s[..from] + s[from + 1..];
    var at := if to <= |rest| then to else |rest|;
    rest[..at] + [s[from]] + rest[at..]
  }

  /** `s` with the element at `i` removed. */
  function RemoveAt<T>(s: seq<T>, i: nat): (r: seq<T>)
    requires i < |s|
    ensures |r| == |s| - 1
  {
    s[..i] + s[i + 1..]
  }

  /**
   * The move puts the moved element at the (clamped) target index, keeps every
   * other element in its relative order, and is a permutation.
   */
  lemma MoveSpec<T>(s: seq<T>, from: nat, to: nat)
    requires from < |s| && to < |s|
    ensures Move(s, from, to)[to] == s[from]
    ensures RemoveAt(Move(s, from, to), to) == RemoveAt(s, from)
    ensures multiset(Move(s, from, to)) == multiset(s)
  {
    var rest := RemoveAt(s, from);
    var r := Move(s, from, to);
    assert r == rest[..to] + [s[from]] + rest[to..];
    assert RemoveAt(r, to) == rest[..to] + rest[to..];
    assert rest[..to] + rest[to..] == rest;
    calc {
      multiset(r);
      multiset(rest[..to]) + multiset([s[from]]) + multiset(rest[to..]);
      { assert rest == rest[..to] + rest[to..]; }
      multiset(rest) + multiset([s[from]]);
      { assert s == s[..from] + [s[from]] + s[from + 1..]; }
      multiset(s);
    }
  }

  /** Moving an element one place up swaps it with its predecessor. */
  lemma MoveUpSwaps<T>(s: seq<T>, i: nat)
    requires 0 < i < |s|
    ensures Move(s, i, i - 1) == s[..i - 1] + [s[i], s[i - 1]] + s[i + 1..]
  {
    var rest := RemoveAt(s, i);
    assert rest[..i - 1] == s[..i - 1];
    assert rest[i - 1..] == [s[i - 1]] + s[i + 1..];
  }

  /** Moving an element one place down swaps it with its successor. */
  lemma MoveDownSwaps<T>(s: seq<T>, i: nat)
    requires i + 1 < |s|
    ensures Move(s, i, i + 1) == s[..i] + [s[i + 1], s[i]] + s[i + 2..]
  {
    var rest := RemoveAt(s, i);
    assert rest[..i + 1] == s[..i] + [s[i + 1]];
    assert rest[i + 1..] == s[i + 2..];
  }
}

=== FILE: settings.dfy ===
/**
 * The settings object of the settings dialog: its schema and defaults, the
 * normalisation applied on every load and save, the section reordering, the
 * section-to-field picker and the audio-placement select.
 */
module Settings {
  import opened Wrappers
  import opened Text
  import opened Seqs

  /** The nine content slots of the form. */
  datatype Section =
    | TargetWord | Definition | Sentence | SentenceTranslation | ExampleSentences
    | Notes | SentenceAudio | WordAudio | Images
  {
    /** The key under which the section appears in `sectionOrder` and `sectionToField`. */
    function Key(): string {
      match this
      case TargetWord => "targetWord"
      case Definition => "definition"
      case Sentence => "sentence"
      case SentenceTranslation => "sentenceTranslation"
      case ExampleSentences => "exampleSentences"
      case Notes => "notes"
      case SentenceAudio => "sentenceAudio"
      case WordAudio => "wordAudio"
      case Images => "images"
    }
  }

  /** The canonical section order, which is also the default one. */
  const AllSectionKeys: seq<string> :=
    ["targetWord", "definition", "sentence", "sentenceTranslation", "exampleSentences",
     "notes", "sentenceAudio", "wordAudio", "images"]

  /** The section a key names, if it names one. */
  function SectionOf(key: string): (r: Option<Section>)
    ensures r.Some? ==> r.value.Key() == key
    ensures r.None? <==> key !in AllSectionKeys
  {
    if key == "targetWord" then Some(TargetWord)
    else if key == "definition" then Some(Definition)
    else if key == "sentence" then Some(Sentence)
    else if key == "sentenceTranslation" then Some(SentenceTranslation)
    else if key == "exampleSentences" then Some(ExampleSentences)
    else if key == "notes" then Some(Notes)
    else if key == "sentenceAudio" then Some(SentenceAudio)
    else if key == "wordAudio" then Some(WordAudio)
    else if key == "images" then Some(Images)
    else None
  }

  /** Keys and sections are in one-to-one correspondence. */
  lemma SectionKeyRoundTrip(s: Section)
    ensures SectionOf(s.Key()) == Some(s)
    ensures s.Key() in AllSectionKeys
  {
  }

  lemma AllSectionKeysNoDup()
    ensures NoDup(AllSectionKeys)
    ensures |AllSectionKeys| == 9
  {
  }

  /** The placement modes of an audio clip: `'front' | 'back' | 'field' | 'none'`. */
  datatype Mode = Front | Back | Field | NoAppend {
    function Name(): string {
      match this
      case Front => "front"
      case Back => "back"
      case Field => "field"
      case NoAppend => "none"
    }
  }

  /** `{ mode, fieldName? }`. */
  datatype AudioTarget = AudioTarget(mode: Mode, fieldName: Option<string>)

  /** The settings record (`AnkiSettings`). */
  datatype AnkiSettings = AnkiSettings(
    deckName: string,
    modelName: string,
    frontFieldName: string,
    backFieldName: string,
    sectionOrder: seq<string>,
    sectionToField: map<string, string>,
    audio1Target: AudioTarget,
    audio2Target: AudioTarget,
    allowDuplicate: bool)

  const DefaultSettings: AnkiSettings := AnkiSettings(
    "Default", "Basic", "Front", "Back", AllSectionKeys, map[],
    AudioTarget(Front, None), AudioTarget(Back, None), false)

  /**
   * A stored or patched settings object, where any property may be missing.
   * `sectionOrder` is `None` when it is absent or not an array; `sectionToField`
   * is `None` when it is absent or falsy.
   */
  datatype RawSettings = RawSettings(
    deckName: Option<string>,
    modelName: Option<string>,
    frontFieldName: Option<string>,
    backFieldName: Option<string>,
    sectionOrder: Option<seq<string>>,
    sectionToField: Option<map<string, string>>,
    audio1Target: Option<AudioTarget>,
    audio2Target: Option<AudioTarget>,
    allowDuplicate: Option<bool>)

  const EmptyPatch: RawSettings := RawSettings(None, None, None, None, None, None, None, None, None)

  /** A complete settings object seen as a raw one with every property present. */
  function ToRaw(s: AnkiSettings): RawSettings {
    RawSettings(Some(s.deckName), Some(s.modelName), Some(s.frontFieldName), Some(s.backFieldName),
                Some(s.sectionOrder), Some(s.sectionToField), Some(s.audio1Target),
                Some(s.audio2Target), Some(s.allowDuplicate))
  }

  function Pick<T>(top: Option<T>, below: Option<T>): Option<T> {
    if top.Some? then top else below
  }

  /** `{ ...base, ...patch }`: a property of the patch, when present, wins. */
  function Overlay(base: RawSettings, patch: RawSettings): RawSettings {
    RawSettings(
      Pick(patch.deckName, base.deckName), Pick(patch.modelName, base.modelName),
      Pick(patch.frontFieldName, base.frontFieldName), Pick(patch.backFieldName, base.backFieldName),
      Pick(patch.sectionOrder, base.sectionOrder), Pick(patch.sectionToField, base.sectionToField),
      Pick(patch.audio1Target, base.audio1Target), Pick(patch.audio2Target, base.audio2Target),
      Pick(patch.allowDuplicate, base.allowDuplicate))
  }

  /** A section order that lists every canonical section exactly once and nothing else. */
  predicate IsCanonicalOrder(order: seq<string>) {
    && NoDup(order)
    && (forall k :: k in order ==> k in AllSectionKeys)
    && (forall k :: k in AllSectionKeys ==> k in order)
  }

  /**
   * `Array.from(new Set([...existing.filter(known), ...allSections]))`: the repaired
   * section order, a permutation of the canonical sections.
   */
  function MergedOrder(existing: seq<string>): (r: seq<string>)
    ensures IsCanonicalOrder(r)
    ensures multiset(r) == multiset(AllSectionKeys)
    ensures |r| == |AllSectionKeys|
  {
    var r := Dedup(Within(existing, AllSectionKeys) + AllSectionKeys);
    AllSectionKeysNoDup();
    SameMembersPermutation(r, AllSectionKeys);
    r
  }

  /**
   * The known keys keep their first-occurrence order as a prefix; the canonical
   * sections the input lacks follow in canonical order.
   */
  lemma MergedOrderShape(existing: seq<string>)
    ensures MergedOrder(existing)
         == Dedup(Within(existing, AllSectionKeys)) + Outside(AllSectionKeys, existing)
  {
    var known := Within(existing, AllSectionKeys);
    AllSectionKeysNoDup();
    DedupAppend(known, AllSectionKeys);
    assert Outside(AllSectionKeys, known) == Outside(AllSectionKeys, existing) by {
      OutsideSameOn(AllSectionKeys, known, existing);
    }
  }

  lemma OutsideSameOn(xs: seq<string>, a: seq<string>, b: seq<string>)
    requires forall x :: x in xs ==> (x in a <==> x in b)
    ensures Outside(xs, a) == Outside(xs, b)
    decreases |xs|
  {
    if |xs| > 0 {
      OutsideSameOn(xs[..|xs| - 1], a, b);
      assert xs[|xs| - 1] in xs;
    }
  }

  /** An order that is already canonical is left exactly as it is. */
  lemma MergedOrderOfCanonical(order: seq<string>)
    requires IsCanonicalOrder(order)
    ensures MergedOrder(order) == order
  {
    MergedOrderShape(order);
    WithinOfSubset(order, AllSectionKeys);
    DedupOfNoDup(order);
    OutsideOfSubset(AllSectionKeys, order);
    assert order + [] == order;
  }

  /** `normalize`: a shallow merge over the defaults with the section order repaired. */
  function Normalize(raw: RawSettings): (r: AnkiSettings)
    ensures r.sectionOrder == MergedOrder(raw.sectionOrder.GetOr([]))
    ensures IsCanonicalOrder(r.sectionOrder)
    ensures r.sectionToField == raw.sectionToField.GetOr(map[])
    ensures r.deckName == raw.deckName.GetOr(DefaultSettings.deckName)
    ensures r.modelName == raw.modelName.GetOr(DefaultSettings.modelName)
    ensures r.frontFieldName == raw.frontFieldName.GetOr(DefaultSettings.frontFieldName)
    ensures r.backFieldName == raw.backFieldName.GetOr(DefaultSettings.backFieldName)
    ensures r.audio1Target == raw.audio1Target.GetOr(DefaultSettings.audio1Target)
    ensures r.audio2Target == raw.audio2Target.GetOr(DefaultSettings.audio2Target)
    ensures r.allowDuplicate == raw.allowDuplicate.GetOr(DefaultSettings.allowDuplicate)
  {
    AnkiSettings(
      raw.deckName.GetOr(DefaultSettings.deckName), raw.modelName.GetOr(DefaultSettings.modelName),
      raw.frontFieldName.GetOr(DefaultSettings.frontFieldName),
      raw.backFieldName.GetOr(DefaultSettings.backFieldName),
      MergedOrder(raw.sectionOrder.GetOr([])), raw.sectionToField.GetOr(map[]),
      raw.audio1Target.GetOr(DefaultSettings.audio1Target),
      raw.audio2Target.GetOr(DefaultSettings.audio2Target),
      raw.allowDuplicate.GetOr(DefaultSettings.allowDuplicate))
  }

  /** A missing or non-array section order is replaced by exactly the canonical order. */
  lemma NormalizeMissingOrder(raw: RawSettings)
    requires raw.sectionOrder.None?
    ensures Normalize(raw).sectionOrder == AllSectionKeys
  {
    assert Normalize(raw).sectionOrder == MergedOrder([]);
    MergedOrderOfNothing();
  }

  /** Repairing the empty order gives the canonical order. */
  lemma MergedOrderOfNothing()
    ensures MergedOrder([]) == AllSectionKeys
  {
    MergedOrderShape([]);
    var none: seq<string> := [];
    assert Within(none, AllSectionKeys) == none;
    assert Dedup(none) == none;
    OutsideOfNothing(AllSectionKeys);
    assert none + AllSectionKeys == AllSectionKeys;
  }

  lemma OutsideOfNothing(xs: seq<string>)
    ensures Outside(xs, []) == xs
    decreases |xs|
  {
    if |xs| > 0 {
      OutsideOfNothing(xs[..|xs| - 1]);
      assert xs == xs[..|xs| - 1] + [xs[|xs| - 1]];
    }
  }

  /** The settings normalisation leaves already normalised settings unchanged. */
  lemma NormalizeIdempotent(raw: RawSettings)
    ensures Normalize(ToRaw(Normalize(raw))) == Normalize(raw)
  {
    MergedOrderOfCanonical(Normalize(raw).sectionOrder);
  }

  /** Settings whose order is canonical are a fixed point of the normalisation. */
  lemma NormalizeFixesCanonical(s: AnkiSettings)
    requires IsCanonicalOrder(s.sectionOrder)
    ensures Normalize(ToRaw(s)) == s
  {
    MergedOrderOfCanonical(s.sectionOrder);
  }

  /** What `save` leaves behind: the new dialog state and the value written to storage. */
  datatype Saved = Saved(state: AnkiSettings, stored: AnkiSettings)

  /** `save`: the normalised value becomes the state and is what gets stored. */
  function Save(next: RawSettings): (r: Saved)
    ensures r.state == r.stored
    ensures r.stored == Normalize(next)
    ensures IsCanonicalOrder(r.stored.sectionOrder)
    ensures Normalize(ToRaw(r.stored)) == r.stored
  {
    var n := Normalize(next);
    NormalizeIdempotent(next);
    Saved(n, n)
  }

  /**
   * The dialog's initial state: the stored blob, or the defaults when nothing
   * (readable) is stored, normalised.
   */
  function Load(stored: Option<RawSettings>): (r: AnkiSettings)
    ensures IsCanonicalOrder(r.sectionOrder)
    ensures stored.None? ==> r == DefaultSettings
    ensures stored.Some? ==> r == Normalize(stored.value)
  {
    if stored.None? then
      NormalizeFixesCanonical(DefaultSettings);
      Normalize(ToRaw(DefaultSettings))
    else Normalize(stored.value)
  }

  /** Loading what was saved yields the state the save produced. */
  lemma LoadAfterSave(next: RawSettings)
    ensures Load(Some(ToRaw(Save(next).stored))) == Save(next).state
  {
  }

  /** `update(patch)`: save the current state overlaid with the patch. */
  function Update(state: AnkiSettings, patch: RawSettings): (r: Saved)
    ensures r.state == r.stored
    ensures IsCanonicalOrder(r.state.sectionOrder)
    ensures r.state.sectionOrder == MergedOrder(patch.sectionOrder.GetOr(state.sectionOrder))
    ensures r.state.deckName == patch.deckName.GetOr(state.deckName)
    ensures r.state.modelName == patch.modelName.GetOr(state.modelName)
    ensures r.state.frontFieldName == patch.frontFieldName.GetOr(state.frontFieldName)
    ensures r.state.backFieldName == patch.backFieldName.GetOr(state.backFieldName)
    ensures r.state.sectionToField == patch.sectionToField.GetOr(state.sectionToField)
    ensures r.state.audio1Target == patch.audio1Target.GetOr(state.audio1Target)
    ensures r.state.audio2Target == patch.audio2Target.GetOr(state.audio2Target)
    ensures r.state.allowDuplicate == patch.allowDuplicate.GetOr(state.allowDuplicate)
  {
    OverlayOfComplete(state, patch);
    Save(Overlay(ToRaw(state), patch))
  }

  /** Overlaying a patch on complete settings leaves every property present. */
  lemma OverlayOfComplete(state: AnkiSettings, patch: RawSettings)
    ensures Overlay(ToRaw(state), patch) == RawSettings(
      Some(patch.deckName.GetOr(state.deckName)), Some(patch.modelName.GetOr(state.modelName)),
      Some(patch.frontFieldName.GetOr(state.frontFieldName)), Some(patch.backFieldName.GetOr(state.backFieldName)),
      Some(patch.sectionOrder.GetOr(state.sectionOrder)), Some(patch.sectionToField.GetOr(state.sectionToField)),
      Some(patch.audio1Target.GetOr(state.audio1Target)), Some(patch.audio2Target.GetOr(state.audio2Target)),
      Some(patch.allowDuplicate.GetOr(state.allowDuplicate)))
  {
  }

  /** An update that patches nothing re-saves a normalised state unchanged. */
  lemma UpdateEmptyPatch(state: AnkiSettings)
    requires IsCanonicalOrder(state.sectionOrder)
    ensures Update(state, EmptyPatch).state == state
  {
    assert Overlay(ToRaw(state), EmptyPatch) == ToRaw(state);
    NormalizeFixesCanonical(state);
  }

  /** A multiset-preserving rearrangement of a duplicate-free sequence is duplicate-free. */
  lemma {:induction false} PermutationNoDup(a: seq<string>, b: seq<string>)
    requires multiset(a) == multiset(b)
    requires NoDup(b)
    ensures NoDup(a)
  {
    forall i, j | 0 <= i < j < |a|
      ensures a[i] != a[j]
    {
      if a[i] == a[j] {
        var x := a[i];
        assert a == a[..j] + [a[j]] + a[j + 1..];
        assert x in a[..j];
        assert multiset(a[..j])[x] >= 1;
        assert multiset(a)[x] >= 2;
        NoDupCount(b, x);
      }
    }
  }

  /**
   * `reorderSection(from, to)`: nothing happens when `from == to`; otherwise the
   * order with the section at `from` moved to `to` is saved.
   */
  function ReorderSection(state: AnkiSettings, from: nat, to: nat): (r: Option<Saved>)
    requires from < |state.sectionOrder|
    ensures from == to <==> r.None?
  {
    if from == to then None
    else Some(Update(state, EmptyPatch.(sectionOrder := Some(Move(state.sectionOrder, from, to)))))
  }

  /**
   * On a normalised state a reorder saves exactly the moved order: a permutation
   * of the old one with the moved section at `to` and the others in their old relative order.
   */
  lemma ReorderSectionSpec(state: AnkiSettings, from: nat, to: nat)
    requires IsCanonicalOrder(state.sectionOrder)
    requires from < |state.sectionOrder| && to < |state.sectionOrder| && from != to
    ensures ReorderSection(state, from, to).Some?
    ensures var order := ReorderSection(state, from, to).value.state.sectionOrder;
      && multiset(order) == multiset(state.sectionOrder)
      && order[to] == state.sectionOrder[from]
      && RemoveAt(order, to) == RemoveAt(state.sectionOrder, from)
  {
    var s := state.sectionOrder;
    var moved := Move(s, from, to);
    MoveSpec(s, from, to);
    PermutationNoDup(moved, s);
    assert forall k :: k in moved <==> k in s by {
      forall k ensures k in moved <==> k in s {
        assert k in moved <==> k in multiset(moved);
        assert k in s <==> k in multiset(s);
      }
    }
    MergedOrderOfCanonical(moved);
  }

  /** The index the "up" button of row `idx` moves it to. */
  function UpTarget(idx: nat): (r: nat)
    ensures idx > 0 ==> r == idx - 1
    ensures idx == 0 ==> r == 0
  {
    if idx == 0 then 0 else idx - 1
  }

  /** The index the "down" button of row `idx` moves it to, in a list of `len` rows. */
  function DownTarget(idx: nat, len: nat): (r: nat)
    requires idx < len
    ensures r < len
    ensures idx + 1 < len ==> r == idx + 1
    ensures idx + 1 == len ==> r == idx
  {
    if idx + 1 < len then idx + 1 else len - 1
  }

  /**
   * The up and down buttons swap a row with its neighbour, and do nothing at
   * the ends of the list.
   */
  lemma ArrowButtonsSwap(state: AnkiSettings, idx: nat)
    requires IsCanonicalOrder(state.sectionOrder)
    requires idx < |state.sectionOrder|
    ensures var s := state.sectionOrder;
      && (idx == 0 ==> ReorderSection(state, idx, UpTarget(idx)).None?)
      && (idx > 0 ==>
            ReorderSection(state, idx, UpTarget(idx)).value.state.sectionOrder
            == s[..idx - 1] + [s[idx], s[idx - 1]] + s[idx + 1..])
      && (idx + 1 == |s| ==> ReorderSection(state, idx, DownTarget(idx, |s|)).None?)
      && (idx + 1 < |s| ==>
            ReorderSection(state, idx, DownTarget(idx, |s|)).value.state.sectionOrder
            == s[..idx] + [s[idx + 1], s[idx]] + s[idx + 2..])
  {
    if idx > 0 {
      UpArrowSwaps(state, idx);
    }
    if idx + 1 < |state.sectionOrder| {
      DownArrowSwaps(state, idx);
    }
  }

  lemma UpArrowSwaps(state: AnkiSettings, idx: nat)
    requires IsCanonicalOrder(state.sectionOrder)
    requires 0 < idx < |state.sectionOrder|
    ensures var s := state.sectionOrder;
      ReorderSection(state, idx, idx - 1).value.state.sectionOrder == s[..idx - 1] + [s[idx], s[idx - 1]] + s[idx + 1..]
  {
    MoveUpSwaps(state.sectionOrder, idx);
    ReorderSavesMove(state, idx, idx - 1);
  }

  lemma DownArrowSwaps(state: AnkiSettings, idx: nat)
    requires IsCanonicalOrder(state.sectionOrder)
    requires idx + 1 < |state.sectionOrder|
    ensures var s := state.sectionOrder;
      ReorderSection(state, idx, idx + 1).value.state.sectionOrder == s[..idx] + [s[idx + 1], s[idx]] + s[idx + 2..]
  {
    MoveDownSwaps(state.sectionOrder, idx);
    ReorderSavesMove(state, idx, idx + 1);
  }

  /** On a canonical order, a reorder saves the moved order itself. */
  lemma ReorderSavesMove(state: AnkiSettings, from: nat, to: nat)
    requires IsCanonicalOrder(state.sectionOrder)
    requires from < |state.sectionOrder| && to < |state.sectionOrder| && from != to
    ensures ReorderSection(state, from, to) == Some(Update(state, EmptyPatch.(sectionOrder := Some(Move(state.sectionOrder, from, to)))))
    ensures ReorderSection(state, from, to).value.state.sectionOrder == Move(state.sectionOrder, from, to)
  {
    MoveCanonical(state.sectionOrder, from, to);
  }

  lemma MoveCanonical(s: seq<string>, from: nat, to: nat)
    requires IsCanonicalOrder(s)
    requires from < |s| && to < |s|
    ensures IsCanonicalOrder(Move(s, from, to))
    ensures MergedOrder(Move(s, from, to)) == Move(s, from, to)
  {
    var moved := Move(s, from, to);
    MoveSpec(s, from, to);
    PermutationNoDup(moved, s);
    forall k ensures k in moved <==> k in s {
      assert k in moved <==> k in multiset(moved);
      assert k in s <==> k in multiset(s);
    }
    MergedOrderOfCanonical(moved);
  }

  /**
   * The per-section field picker: `''` means "append to Back", any other value
   * maps the section to that field; the order is untouched.
   */
  function MapSectionToField(state: AnkiSettings, key: string, field: string): (r: Saved)
    ensures r.state == r.stored
    ensures r.state.sectionToField == state.sectionToField[key := field]
    ensures key in r.state.sectionToField && r.state.sectionToField[key] == field
    ensures forall k :: k != key ==>
              (k in r.state.sectionToField <==> k in state.sectionToField)
              && (k in state.sectionToField ==> r.state.sectionToField[k] == state.sectionToField[k])
    ensures IsCanonicalOrder(state.sectionOrder) ==> r.state.sectionOrder == state.sectionOrder
    ensures r.state.deckName == state.deckName && r.state.modelName == state.modelName
    ensures r.state.frontFieldName == state.frontFieldName && r.state.backFieldName == state.backFieldName
    ensures r.state.audio1Target == state.audio1Target && r.state.audio2Target == state.audio2Target
    ensures r.state.allowDuplicate == state.allowDuplicate
  {
    var m := state.sectionToField[key := field];
    var r := Update(state, EmptyPatch.(sectionToField := Some(m)));
    assert r.state.sectionToField == m;
    assert r.state.sectionOrder == MergedOrder(state.sectionOrder);
    MergedOrderKeepsCanonical(state.sectionOrder);
    r
  }

  lemma MergedOrderKeepsCanonical(order: seq<string>)
    ensures IsCanonicalOrder(order) ==> MergedOrder(order) == order
  {
    if IsCanonicalOrder(order) {
      MergedOrderOfCanonical(order);
    }
  }

  /* ---------------- the audio-placement select ---------------- */

  /** The select's value for a target: `mode`, or `field:name` in field mode. */
  function EncodeTarget(t: AudioTarget): string {
    t.mode.Name() + (if t.mode == Field then ":" + t.fieldName.GetOr("") else "")
  }

  /** The mode a select token names, if any. */
  function ModeOf(name: string): (r: Option<Mode>)
    ensures r.Some? ==> r.value.Name() == name
  {
    if name == "front" then Some(Front)
    else if name == "back" then Some(Back)
    else if name == "field" then Some(Field)
    else if name == "none" then Some(NoAppend)
    else None
  }

  /**
   * `const [mode, fieldName] = value.split(':')`; `None` for a mode token that is
   * none of the four (no rendered option has one).
   */
  function DecodeTarget(value: string): (r: Option<AudioTarget>)
    ensures ':' !in value ==> r == (match ModeOf(value) case Some(m) => Some(AudioTarget(m, None)) case None => None)
  {
    var parts := Split(value, ':');
    match ModeOf(parts[0])
    case None => None
    case Some(m) => Some(AudioTarget(m, if |parts| > 1 then Some(parts[1]) else None))
  }

  /** The values the select renders: the three fixed modes and one `field:` option per field. */
  function OptionValues(fields: seq<string>): (r: seq<string>)
    ensures |r| == 3 + |fields|
    ensures r[..3] == ["front", "back", "none"]
    ensures forall i :: 0 <= i < |fields| ==> r[3 + i] == "field:" + fields[i]
  {
    ["front", "back", "none"] + seq(|fields|, i requires 0 <= i < |fields| => "field:" + fields[i])
  }

  /**
   * What a target becomes after a trip through the select: non-field modes lose
   * their field name, and field mode without a name gets the empty name.
   */
  function Displayed(t: AudioTarget): AudioTarget {
    if t.mode == Field then AudioTarget(Field, Some(t.fieldName.GetOr("")))
    else AudioTarget(t.mode, None)
  }

  /** Encoding then decoding restores the target whenever the field name has no `:`. */
  lemma TargetRoundTrip(t: AudioTarget)
    requires ':' !in t.fieldName.GetOr("")
    ensures DecodeTarget(EncodeTarget(t)) == Some(Displayed(t))
  {
    if t.mode == Field {
      var name := t.fieldName.GetOr("");
      assert EncodeTarget(t) == "field" + [':'] + name;
      SplitFirst("field", name, ':');
      assert Split(name, ':') == [name];
      var parts := Split(EncodeTarget(t), ':');
      assert parts == ["field", name];
      ModeOfName(Field);
    } else {
      assert EncodeTarget(t) == t.mode.Name();
      ModeOfName(t.mode);
    }
  }

  /** Every mode's token names that mode and holds no `:`. */
  lemma ModeOfName(m: Mode)
    ensures ':' !in m.Name()
    ensures ModeOf(m.Name()) == Some(m)
  {
    match m
    case Front =>
    case Back =>
    case Field =>
    case NoAppend =>
  }

  /**
   * A field name containing `:` does not survive: only the text before its first
   * `:` comes back.
   */
  lemma TargetColonTruncates(a: string, b: string)
    requires ':' !in a && ':' !in b
    ensures DecodeTarget(EncodeTarget(AudioTarget(Field, Some(a + ":" + b))))
         == Some(AudioTarget(Field, Some(a)))
  {
    var name := a + [':'] + b;
    assert a + ":" + b == name;
    SplitFirst(a, b, ':');
    DecodeFieldValue(name, a);
  }

  /** A `field:` value decodes to field mode with the first `:`-separated piece of the rest. */
  lemma DecodeFieldValue(name: string, first: string)
    requires Split(name, ':')[0] == first
    ensures DecodeTarget(EncodeTarget(AudioTarget(Field, Some(name))))
         == Some(AudioTarget(Field, Some(first)))
  {
    var v := EncodeTarget(AudioTarget(Field, Some(name)));
    assert v == "field" + [':'] + name;
    SplitFirst("field", name, ':');
    var parts := Split(v, ':');
    assert parts[0] == "field";
    assert parts[1] == first;
  }

  /** The modes of the three fixed options, in the order they are rendered. */
  const FixedModes: seq<Mode> := [Front, Back, NoAppend]

  /**
   * Every rendered option decodes to the target it offers: a fixed option to its
   * mode, a field option to field mode with that field.
   */
  lemma OptionValuesDecode(fields: seq<string>, i: nat)
    requires forall j :: 0 <= j < |fields| ==> ':' !in fields[j]
    requires i < |OptionValues(fields)|
    ensures DecodeTarget(OptionValues(fields)[i]).Some?
    ensures i < 3 ==> DecodeTarget(OptionValues(fields)[i]) == Some(AudioTarget(FixedModes[i], None))
    ensures i >= 3 ==> DecodeTarget(OptionValues(fields)[i]) == Some(AudioTarget(Field, Some(fields[i - 3])))
  {
    if i < 3 {
      FixedOptionDecodes(fields, i);
    } else {
      FieldOptionDecodes(fields, i);
    }
  }

  lemma FixedOptionDecodes(fields: seq<string>, i: nat)
    requires i < 3
    ensures DecodeTarget(OptionValues(fields)[i]) == Some(AudioTarget(FixedModes[i], None))
  {
    var m := FixedModes[i];
    var r := OptionValues(fields);
    assert r[i] == r[..3][i];
    assert r[i] == m.Name();
    TargetRoundTrip(AudioTarget(m, None));
  }

  lemma FieldOptionDecodes(fields: seq<string>, i: nat)
    requires forall j :: 0 <= j < |fields| ==> ':' !in fields[j]
    requires 3 <= i < 3 + |fields|
    ensures DecodeTarget(OptionValues(fields)[i]) == Some(AudioTarget(Field, Some(fields[i - 3])))
  {
    var name := fields[i - 3];
    assert OptionValues(fields)[i] == "field:" + name;
    DecodeFieldOption(name);
  }

  /** A `field:<name>` option with no `:` in the name decodes to field mode with that name. */
  lemma DecodeFieldOption(name: string)
    requires ':' !in name
    ensures DecodeTarget("field:" + name) == Some(AudioTarget(Field, Some(name)))
  {
    assert "field:" + name == "field" + [':'] + name;
    SplitFirst("field", name, ':');
    assert Split(name, ':') == [name];
    ModeOfName(Field);
  }
}

=== FILE: text.dfy ===
/**
 * String helpers with the JavaScript semantics the application relies on:
 * `Array.prototype.join`, `filter(Boolean)`, `String.prototype.trim`,
 * `indexOf` and `split` on a one-character separator.
 */
module Text {

  /** `parts.join(sep)`: the parts with `sep` between neighbours. */
  function Join(parts: seq<string>, sep: string): string
    decreases |parts|
  {
    if |parts| == 0 then ""
    else if |parts| == 1 then parts[0]
    else Join(parts[..|parts| - 1], sep) + sep + parts[|parts| - 1]
  }

  /** `parts.filter(Boolean)` on strings: the empty strings are dropped. */
  function NonEmpty(parts: seq<string>): (r: seq<string>)
    ensures forall i :: 0 <= i < |r| ==> r[i] != ""
    ensures |r| <= |parts|
    decreases |parts|
  {
    if |parts| == 0 then []
    else
      var init := NonEmpty(parts[..|parts| - 1]);
      if parts[|parts| - 1] == "" then init else init + [parts[|parts| - 1]]
  }

  /** `parts.filter(Boolean).join(sep)`. */
  function JoinNonEmpty(parts: seq<string>, sep: string): string {
    Join(NonEmpty(parts), sep)
  }

  lemma JoinSnoc(parts: seq<string>, p: string, sep: string)
    requires |parts| > 0
    ensures Join(parts + [p], sep) == Join(parts, sep) + sep + p
  {
    assert (parts + [p])[..|parts|] == parts;
  }

  lemma {:induction false} JoinOfNonEmptyIsNonEmpty(parts: seq<string>, sep: string)
    requires |parts| > 0
    requires forall i :: 0 <= i < |parts| ==> parts[i] != ""
    ensures Join(parts, sep) != ""
    decreases |parts|
  {
    if |parts| > 1 {
      JoinOfNonEmptyIsNonEmpty(parts[..|parts| - 1], sep);
    }
  }

  /** Joining a join of a non-empty list is the same as joining the concatenation. */
  lemma {:induction false} JoinFlatten(a: seq<string>, b: seq<string>, sep: string)
    requires |a| > 0
    ensures Join([Join(a, sep)] + b, sep) == Join(a + b, sep)
    decreases |b|
  {
    if |b| == 0 {
      assert [Join(a, sep)] + b == [Join(a, sep)];
      assert a + b == a;
    } else {
      var b' := b[..|b| - 1];
      var x := b[|b| - 1];
      JoinFlatten(a, b', sep);
      assert [Join(a, sep)] + b == ([Join(a, sep)] + b') + [x];
      assert a + b == (a + b') + [x];
      JoinSnoc([Join(a, sep)] + b', x, sep);
      JoinSnoc(a + b', x, sep);
    }
  }

  lemma {:induction false} NonEmptyAppend(a: seq<string>, b: seq<string>)
    ensures NonEmpty(a + b) == NonEmpty(a) + NonEmpty(b)
    decreases |b|
  {
    if |b| == 0 {
      assert a + b == a;
    } else {
      var b' := b[..|b| - 1];
      NonEmptyAppend(a, b');
      assert (a + b)[..|a + b| - 1] == a + b';
    }
  }

  lemma {:induction false} NonEmptyOfNonEmpty(parts: seq<string>)
    requires forall i :: 0 <= i < |parts| ==> parts[i] != ""
    ensures NonEmpty(parts) == parts
    decreases |parts|
  {
    if |parts| > 0 {
      var init := parts[..|parts| - 1];
      assert forall i :: 0 <= i < |init| ==> init[i] == parts[i];
      NonEmptyOfNonEmpty(init);
      assert NonEmpty(parts) == init + [parts[|parts| - 1]];
      assert init + [parts[|parts| - 1]] == parts;
    }
  }

  /**
   * Folding a filtered join is the same as filtering and joining once:
   * `[join(xs), ...ys].filter(Boolean).join(sep)` equals `[...xs, ...ys].filter(Boolean).join(sep)`.
   */
  lemma JoinNonEmptyFlatten(xs: seq<string>, ys: seq<string>, sep: string)
    ensures JoinNonEmpty([JoinNonEmpty(xs, sep)] + ys, sep) == JoinNonEmpty(xs + ys, sep)
  {
    var a := NonEmpty(xs);
    var b := NonEmpty(ys);
    NonEmptyAppend([JoinNonEmpty(xs, sep)], ys);
    NonEmptyAppend(xs, ys);
    if |a| == 0 {
      assert NonEmpty([JoinNonEmpty(xs, sep)]) == [];
      assert NonEmpty(xs + ys) == b;
      assert NonEmpty([JoinNonEmpty(xs, sep)] + ys) == [] + b;
      assert [] + b == b;
    } else {
      JoinOfNonEmptyIsNonEmpty(a, sep);
      assert [JoinNonEmpty(xs, sep)][..0] == [];
      assert NonEmpty([JoinNonEmpty(xs, sep)]) == [Join(a, sep)];
      JoinFlatten(a, b, sep);
    }
  }

  /**
   * One step of `[existing, part].filter(Boolean).join(sep)`: a non-empty part is
   * appended after the existing text, with the separator only when that text is non-empty.
   */
  function AppendPart(existing: string, part: string, sep: string): (r: string)
    requires part != ""
    ensures r == JoinNonEmpty([existing, part], sep)
    ensures existing == "" ==> r == part
    ensures existing != "" ==> r == existing + sep + part
  {
    assert [existing, part][..1] == [existing];
    assert [existing][..0] == [];
    assert NonEmpty([existing]) == if existing == "" then [] else [existing];
    assert NonEmpty([existing, part]) == NonEmpty([existing]) + [part];
    assert Join([existing, part], sep) == existing + sep + part;
    if existing == "" then part else existing + sep + part
  }

  /* ---------------- containment ---------------- */

  /** `p` occurs in `s` starting at offset `k`. */
  predicate OccursAt(p: string, s: string, k: int) {
    0 <= k && k + |p| <= |s| && s[k..k + |p|] == p
  }

  /** `s.includes(p)`: `p` occurs in `s` at some offset. */
  predicate IsInfix(p: string, s: string) {
    exists k :: 0 <= k <= |s| && OccursAt(p, s, k)
  }

  /** Whatever occurs in a string occurs in every extension of it. */
  lemma InfixOfPrefix(p: string, s: string, t: string)
    requires IsInfix(p, s) && s <= t
    ensures IsInfix(p, t)
  {
    var k :| 0 <= k <= |s| && OccursAt(p, s, k);
    assert t[k..k + |p|] == s[k..k + |p|];
    assert OccursAt(p, t, k);
  }

  /** Occurrence is transitive. */
  lemma InfixTransitive(p: string, q: string, s: string)
    requires IsInfix(p, q) && IsInfix(q, s)
    ensures IsInfix(p, s)
  {
    var i :| 0 <= i <= |q| && OccursAt(p, q, i);
    var j :| 0 <= j <= |s| && OccursAt(q, s, j);
    assert s[j..j + |q|] == q && q[i..i + |p|] == p;
    forall k | 0 <= k < |p|
      ensures s[j + i..j + i + |p|][k] == p[k]
    {
      assert s[j + i + k] == s[j..j + |q|][i + k] == q[i + k] == q[i..i + |p|][k];
    }
    assert s[j + i..j + i + |p|] == p;
    assert OccursAt(p, s, j + i);
  }

  /** Every part occurs in the joined string. */
  lemma {:induction false} JoinHasPart(parts: seq<string>, sep: string, i: nat)
    requires i < |parts|
    ensures IsInfix(parts[i], Join(parts, sep))
    decreases |parts|
  {
    var s := Join(parts, sep);
    var p := parts[i];
    if |parts| == 1 {
      assert s[0..|p|] == p;
      assert OccursAt(p, s, 0);
    } else if i == |parts| - 1 {
      var k := |s| - |p|;
      assert s[k..k + |p|] == p;
      assert OccursAt(p, s, k);
    } else {
      var init := parts[..|parts| - 1];
      assert init[i] == p;
      JoinHasPart(init, sep, i);
      InfixOfPrefix(p, Join(init, sep), s);
    }
  }

  /** Dropping empty parts keeps every non-empty one. */
  lemma {:induction false} NonEmptyKeeps(parts: seq<string>, p: string)
    requires p in parts && p != ""
    ensures p in NonEmpty(parts)
    decreases |parts|
  {
    if parts[|parts| - 1] != p {
      assert p in parts[..|parts| - 1];
      NonEmptyKeeps(parts[..|parts| - 1], p);
    }
  }

  /** A non-empty part occurs in the `filter(Boolean).join` of its list. */
  lemma JoinNonEmptyHasPart(parts: seq<string>, sep: string, p: string)
    requires p in parts && p != ""
    ensures IsInfix(p, JoinNonEmpty(parts, sep))
  {
    NonEmptyKeeps(parts, p);
    var i :| 0 <= i < |NonEmpty(parts)| && NonEmpty(parts)[i] == p;
    JoinHasPart(NonEmpty(parts), sep, i);
  }

  /* ---------------- trimming ---------------- */

  /** WhiteSpace and LineTerminator code points, the set `String.prototype.trim` removes. */
  predicate IsWhitespace(c: char) {
    || '\t' <= c <= '\r'
    || c == ' ' || c == '\U{A0}' || c == '\U{1680}'
    || '\U{2000}' <= c <= '\U{200A}'
    || c == '\U{2028}' || c == '\U{2029}' || c == '\U{202F}' || c == '\U{205F}'
    || c == '\U{3000}' || c == '\U{FEFF}'
  }

  predicate AllWhitespace(s: string) {
    forall i :: 0 <= i < |s| ==> IsWhitespace(s[i])
  }

  /** Drops leading whitespace. */
  function TrimStart(s: string): (r: string)
    ensures |r| <= |s| && r == s[|s| - |r|..]
    ensures AllWhitespace(s[..|s| - |r|])
    ensures r == "" || !IsWhitespace(r[0])
    decreases |s|
  {
    if |s| > 0 && IsWhitespace(s[0]) then
      var r := TrimStart(s[1..]);
      assert s[..|s| - |r|] == [s[0]] + s[1..][..|s[1..]| - |r|];
      r
    else s
  }

  /** Drops trailing whitespace. */
  function TrimEnd(s: string): (r: string)
    ensures |r| <= |s| && r == s[..|r|]
    ensures AllWhitespace(s[|r|..])
    ensures r == "" || !IsWhitespace(r[|r| - 1])
    decreases |s|
  {
    if |s| > 0 && IsWhitespace(s[|s| - 1]) then
      var r := TrimEnd(s[..|s| - 1]);
      assert s[|r|..] == s[..|s| - 1][|r|..] + [s[|s| - 1]];
      r
    else s
  }

  /** `s.trim()`: the longest infix of `s` that neither starts nor ends with whitespace. */
  function Trim(s: string): (r: string)
    ensures r == "" || (!IsWhitespace(r[0]) && !IsWhitespace(r[|r| - 1]))
    ensures exists i, j :: 0 <= i <= j <= |s| && r == s[i..j] && AllWhitespace(s[..i]) && AllWhitespace(s[j..])
  {
    TrimEnds(s);
    TrimSlice(s);
    TrimEnd(TrimStart(s))
  }

  lemma TrimEnds(s: string)
    ensures var r := TrimEnd(TrimStart(s));
      r == "" || (!IsWhitespace(r[0]) && !IsWhitespace(r[|r| - 1]))
  {
    var t := TrimStart(s);
    var r := TrimEnd(t);
    assert r != "" ==> r[0] == t[0];
  }

  lemma TrimSlice(s: string)
    ensures exists i, j :: 0 <= i <= j <= |s| && TrimEnd(TrimStart(s)) == s[i..j]
                        && AllWhitespace(s[..i]) && AllWhitespace(s[j..])
  {
    var i, j := TrimBounds(s);
  }

  /** Where the trimmed text starts and ends in `s`. */
  lemma TrimBounds(s: string) returns (i: nat, j: nat)
    ensures i <= j <= |s| && TrimEnd(TrimStart(s)) == s[i..j]
    ensures AllWhitespace(s[..i]) && AllWhitespace(s[j..])
  {
    i, j := SliceOfSlice(s, TrimStart(s), TrimEnd(TrimStart(s)));
  }

  /** A prefix of a suffix of `s`, with only whitespace cut off on both sides, is a slice of `s`. */
  lemma SliceOfSlice(s: string, t: string, r: string) returns (i: nat, j: nat)
    requires |t| <= |s| && t == s[|s| - |t|..] && AllWhitespace(s[..|s| - |t|])
    requires |r| <= |t| && r == t[..|r|] && AllWhitespace(t[|r|..])
    ensures i <= j <= |s| && r == s[i..j]
    ensures AllWhitespace(s[..i]) && AllWhitespace(s[j..])
  {
    i := |s| - |t|;
    j := i + |r|;
    assert s[i..][..|r|] == s[i..j];
    assert s[i..][|r|..] == s[j..];
  }

  /** Trimming is idempotent. */
  lemma TrimIdempotent(s: string)
    ensures Trim(Trim(s)) == Trim(s)
  {
    var r := Trim(s);
    assert r == "" || !IsWhitespace(r[0]);
    assert TrimStart(r) == r;
    assert TrimEnd(r) == r;
  }

  /** A string trims to nothing exactly when it consists of whitespace only. */
  lemma TrimEmptyIff(s: string)
    ensures Trim(s) == "" <==> AllWhitespace(s)
  {
    var i, j := TrimBounds(s);
    assert Trim(s) == s[i..j];
    assert Trim(s) != "" ==> Trim(s)[0] == s[i];
    assert forall k :: 0 <= k < i ==> s[..i][k] == s[k];
    assert forall k :: j <= k < |s| ==> s[j..][k - j] == s[k];
  }

  /** A string that is not all whitespace keeps some text when trimmed. */
  lemma NonBlankTrim(s: string)
    requires !AllWhitespace(s)
    ensures Trim(s) != ""
  {
    TrimEmptyIff(s);
  }

  /** A string of whitespace only trims to nothing. */
  lemma BlankTrim(s: string)
    requires AllWhitespace(s)
    ensures Trim(s) == ""
  {
    TrimEmptyIff(s);
  }

  /** Trimming a string with no surrounding whitespace changes nothing. */
  lemma TrimNoop(s: string)
    requires s == "" || (!IsWhitespace(s[0]) && !IsWhitespace(s[|s| - 1]))
    ensures Trim(s) == s
  {
  }

  /* ---------------- searching and splitting ---------------- */

  /** `s.indexOf(c)`: the first position of `c`, or -1 when it does not occur. */
  function IndexOf(s: string, c: char): (r: int)
    ensures -1 <= r < |s|
    ensures r == -1 <==> c !in s
    ensures r >= 0 ==> s[r] == c && c !in s[..r]
    decreases |s|
  {
    if |s| == 0 then -1
    else if s[0] == c then 0
    else
      var k := IndexOf(s[1..], c);
      if k == -1 then -1
      else
        assert s[..k + 1] == [s[0]] + s[1..][..k];
        k + 1
  }

  /** `s.split(c)` for a one-character separator. */
  function Split(s: string, c: char): (r: seq<string>)
    ensures |r| > 0
    ensures forall i :: 0 <= i < |r| ==> c !in r[i]
    decreases |s|
  {
    var k := IndexOf(s, c);
    if k == -1 then [s]
    else [s[..k]] + Split(s[k + 1..], c)
  }

  /** Splitting and joining back with the separator is the identity. */
  lemma {:induction false} SplitJoin(s: string, c: char)
    ensures Join(Split(s, c), [c]) == s
    decreases |s|
  {
    var k := IndexOf(s, c);
    SplitUnfold(s, c);
    if k != -1 {
      SplitJoin(s[k + 1..], c);
      JoinAtCut(s, c, k, Split(s[k + 1..], c));
    } else {
      JoinOne(s, [c]);
    }
  }

  lemma JoinOne(p: string, sep: string)
    ensures Join([p], sep) == p
  {
  }

  /** Joining the text before a separator with the pieces after it restores the text. */
  lemma JoinAtCut(s: string, c: char, k: nat, rest: seq<string>)
    requires k < |s| && s[k] == c
    requires |rest| > 0 && Join(rest, [c]) == s[k + 1..]
    ensures Join([s[..k]] + rest, [c]) == s
  {
    JoinCons(s[..k], rest, [c]);
    CutRestore(s, k);
  }

  lemma CutRestore(s: string, k: nat)
    requires k < |s|
    ensures s[..k] + [s[k]] + s[k + 1..] == s
  {
    assert (s[..k] + [s[k]]) == s[..k + 1];
  }

  lemma SplitUnfold(s: string, c: char)
    ensures IndexOf(s, c) == -1 ==> Split(s, c) == [s]
    ensures IndexOf(s, c) != -1 ==> Split(s, c) == [s[..IndexOf(s, c)]] + Split(s[IndexOf(s, c) + 1..], c)
  {
  }

  lemma {:induction false} JoinCons(p: string, parts: seq<string>, sep: string)
    requires |parts| > 0
    ensures Join([p] + parts, sep) == p + sep + Join(parts, sep)
    decreases |parts|
  {
    if |parts| == 1 {
      assert [p] + parts == [p, parts[0]];
      assert [p, parts[0]][..1] == [p];
    } else {
      var init := parts[..|parts| - 1];
      JoinCons(p, init, sep);
      assert ([p] + parts)[..|parts|] == [p] + init;
    }
  }

  /** Splitting at the first separator peels off the text before it. */
  lemma SplitFirst(a: string, b: string, c: char)
    requires c !in a
    ensures Split(a + [c] + b, c) == [a] + Split(b, c)
  {
    var s := a + [c] + b;
    var k := IndexOf(s, c);
    assert s[|a|] == c;
    assert k <= |a|;
    assert k >= |a| by {
      assert forall i :: 0 <= i < |a| ==> s[i] == a[i];
    }
    assert s[..k] == a;
    assert s[k + 1..] == b;
  }
}

=== FILE: wrappers.dfy ===
/** Optional values and the outcome of operations that can throw, shared by every module. */
module Wrappers {

  /** A value that may be missing: JavaScript's `undefined`/`null` versus a present value. */
  datatype Option<+T> = None | Some(value: T) {
    function GetOr(default: T): T {
      match this
      case Some(v) => v
      case None => default
    }
  }

  /** The outcome of an operation that can throw: a value or the error it threw. */
  datatype Result<+R, +E> = Success(value: R) | Failure(error: E)
}
